=== FILE: README.md ===
# manr indexing and search core, modelled in Dafny

manr is a small `man`/`whatis`/`apropos` replacement. Its core lives in
`src/lib.rs`. It discovers compressed page files whose names look like
`name.<1-9><letters>.gz`, orders them by section, and reads a one-line
summary out of each page's NAME section. From these it builds an index
cache of records (id, page, section, description, file path). Three queries
run against the cache:

- whatis: the page name is exactly the term;
- apropos: the term occurs in the page name or the description;
- `first_section`: the file to render for a bare page name.

The model is split into modules that follow that structure:

- `Wrappers`: `Option` and `Result`.
- `Strings`: the Rust string operations the core relies on, stated over
  `seq<char>`. These are ASCII lowercasing, `find`, `contains`,
  `split(..).last()`, `split_once`, `replacen(.., 1)`, `trim_end_matches`,
  `trim_matches`, `split_whitespace` and the `Ord` order on `str`.
- `Sorting`: a stable sort by a string key (Rust's `sort_by` and
  `sort_by_key` are stable) and `Vec::dedup`.
- `Scanner`: the file-name pattern, `list_all_sections` over a given list of
  files, and the "page (section)" title split.
- `Parser`: `get_description`, the two-state scan over a page's lines.
- `Index`: the entry line and the record fields read back out of it, which
  together make up `index_cache`.
- `Search`: whatis, apropos, `display_index_results` and `first_section`.
  They run over a `map<nat, Record>` together with an explicit iteration
  order of its keys.

Two behaviours of the code are modelled twice. One definition follows the
code as written; the other is the evidently intended reading. See
"## Findings". `Index.IndexCache` is the corrected build and
`Index.IndexCacheAsWritten` keeps the original. The queries take any cache.

Three facts about the code shape the model:

- Every listed file gets the next id. The test `!entry.is_empty()`
  (lib.rs:381) can never fail, because every entry line ends in " " and a
  path.
- `first_section` compares the lowercase forms of the paths (lib.rs:274).
- Page names are taken from the file name unchanged.

## Model

| member | source | states |
|---|---|---|
| Scanner.ParseName | src/lib.rs:224 | a name the suffix pattern accepts splits into a stem, a section digit 1-9, a run of ASCII letters and ".gz", and those parts reassemble exactly the name |
| Scanner.ParseNameComplete | src/lib.rs:224 | every name built from such parts is accepted and parses back to the same parts, so the decomposition is unique |
| Scanner.MatchesIff | src/lib.rs:224 | the pattern accepts a name exactly when the name has the shape stem "." digit letters ".gz" |
| Scanner.MatchExamples | src/lib.rs:223-224 | "ls.1.gz" and "openssl.1ssl.gz" are accepted |
| Scanner.TwoDigitsDoNotMatch | src/lib.rs:224 | a two-digit section such as "ls.10.gz" is rejected |
| Scanner.SectionZeroDoesNotMatch | src/lib.rs:224 | section 0 ("ls.0.gz") is rejected |
| Scanner.Matching | src/lib.rs:227-233 | the filter keeps exactly the files with matching names, each as often as it was found, and the files of each section in walk order |
| Scanner.ListAllSections | src/lib.rs:220-242 | the listing is a permutation of the matching files, ascending by section digit, and holds the files of each section in the order the walk found them |
| Scanner.ListAllSectionsUnique | src/lib.rs:236-239 | any sequence of matching files ordered by section that holds, section by section, the walk's files in walk order is the listing: the stable sort is fully determined |
| Scanner.Title | src/lib.rs:250-253 | with ".gz" trimmed from the end, the name is split at its last dot into page and suffix; there is no title exactly when no dot is left, where the original's `unwrap` panics |
| Scanner.TitleOfParsed | src/lib.rs:250-253 | for every matching name, page and section are the stem and the digit followed by its letters |
| Scanner.NoDotNoTitle | src/lib.rs:251-253 | "README.gz" has no title |
| Sorting.SortBy | src/lib.rs:236-239 | the result is a permutation of the input, sorted by the key, and keeps the input's order among elements with equal keys |
| Sorting.StableSortUnique | src/lib.rs:454 | a sequence sorted by the key that keeps the input's order within each key equals the stable sort |
| Sorting.Dedup | src/lib.rs:456 | the result is `Sorting.RunHeads`: in order, `s[0]` and each `s[i]` that differs from `s[i - 1]`; hence the same members, no two equal neighbours, no longer than the input, and unchanged when already free of them |
| Sorting.RunHeads | src/lib.rs:456 | the first element of each run of equal neighbours from index i on, in order: the reference reading of `Vec::dedup` |
| Sorting.DedupSorted | src/lib.rs:454-456 | collapsing runs keeps a sorted sequence sorted |
| Parser.Candidate | src/lib.rs:309-339 | any summary a line after the heading yields is non-empty and lowercase |
| Parser.IsNameMarker | src/lib.rs:306 | a line is a NAME heading when its lowercase form contains ".sh name" or ".sh \"name\"" |
| Parser.SeekName | src/lib.rs:304-308 | the first state: skip lines up to the first NAME heading, then scan the lines after it; "" without a heading |
| Parser.ScanFrom | src/lib.rs:309-346 | the second state: the first summary any line from here on yields; "" at the end of the page |
| Parser.GetDescriptionAsWritten | src/lib.rs:288-349 | the description is lowercase |
| Parser.GetDescription | src/lib.rs:288-349 | the description is lowercase |
| Parser.NoHeadingNoDescription | src/lib.rs:304-306 | a page without a NAME heading (`.SH NAME` or `.sh "name"`, any case) has an empty description |
| Parser.DescriptionIsFirstHit | src/lib.rs:304-346 | the description is what the first yielding line after the first NAME heading yields; later candidates and later headings are ignored |
| Parser.NoHitNoDescription | src/lib.rs:307-348 | when no line after the first heading yields, the description is empty |
| Parser.DescriptionHasSource | src/lib.rs:304-346 | conversely, a non-empty description comes from a yielding line after the first heading with no yielding line between them |
| Parser.NdInline | src/lib.rs:319-322 | an inline `.Nd text` line gives the lowercased line with its leftmost ".nd " replaced by "- " |
| Parser.NdWithoutSpace | src/lib.rs:319-322 | a `.nd` line without ".nd " that does not end in the bare macro gives the whole lowercased line, since `replacen` finds nothing to replace |
| Parser.SeparatorInline | src/lib.rs:333-337 | a `name \- text` line gives "- " followed by the text after the last "- " of the lowercased line: that text ends the line, a "- " stands just before it, and it holds no further "- " |
| Parser.CandidateNoneIff | src/lib.rs:309-339 | a line yields nothing exactly when it has neither a `.nd` macro nor a separator ("- " or a final "-"), or when it is a bare `.nd` line or an open separator line on the last line of the page |
| Parser.BareMarkerTakesNextLine | src/lib.rs:311-317 | a bare `.nd` line, or a separator line ending in "-", "- ", "- \" or "- \ ", takes "- " plus the next line lowercased |
| Parser.ParsersAgree | src/lib.rs:311 | the original and the case-insensitive parsers agree on every page where no line's bare-macro ending depends on letter case |
| Parser.BareNdAsWritten | src/lib.rs:309-323 | a page with a capitalised bare `.Nd` line gets the description ".nd" |
| Parser.BareNdCorrected | src/lib.rs:311-317 | with the case-insensitive test, a bare `.nd` line in any letter case takes the next line as the summary |
| Parser.BareNdCorrectedExample | src/lib.rs:311-317 | the same page then gets "- list directory contents" |
| Index.FormatFilenameDescription | src/lib.rs:245-260 | the entry head is "page (section) summary"; for a matching name, page and section are the name's stem and section; there is none exactly when the trimmed name has no dot |
| Index.EntryLine | src/lib.rs:372-376 | the entry line is the head, the summary and the file's path, joined by single spaces |
| Index.ListedOf | src/lib.rs:371-376 | what the first loop keeps for a listed file: its entry line and the summary that went into it |
| Index.Prepare | src/lib.rs:371-376 | the first loop maps every listed file, in order, to its entry line and summary |
| Index.RecordFromLine | src/lib.rs:386-392 | reading the fields back fails exactly when the line has no " /", where the original's `split_once(" /").unwrap()` panics |
| Index.RecordFromLineAgrees | src/lib.rs:386-392 | a line built from a plain page name, a plain section, a text and an absolute path without blanks reads back as that page, that section and that path; the description is the text before the path cut at its last " - " |
| Index.DescriptionOfSummary | src/lib.rs:390 | a summary "- text" gives the description "text" when the text holds no " - " (otherwise `split(" - ").last()` keeps only what follows the last one) |
| Index.DescriptionOfEmptySummary | src/lib.rs:390 | an empty summary gives the description "page (section) " |
| Index.ReadAsWritten | src/lib.rs:386-392 | the original reading fails exactly when the line has no " /", and stamps the given id |
| Index.ReadCorrected | src/lib.rs:386-392 | the corrected reading fails on the same lines, gives an empty description for an empty summary, and agrees with the original on every other field (id, page, section, file path) always and on the description too when the summary is not empty |
| Index.Build | src/lib.rs:380-397 | the cache has keys 1..n, and record i+1 is read from item i; a build that fails stops at the first unreadable item and reports its line |
| Index.IndexOf | src/lib.rs:364-397 | ids 1..n follow listing order, each record carries its own key as id and is what the reader makes of its file's line, a failure names an entry line without " /", and absolute paths never fail |
| Index.IndexCacheAsWritten | src/lib.rs:364-397 | the original cache has one record per listed file, keyed by its id |
| Index.IndexCache | src/lib.rs:364-397 | the corrected cache has one record per listed file, keyed by its id, and is always built when every matching file has an absolute path |
| Index.AbsolutePathReadable | src/lib.rs:374-375 | a listed file with an absolute path always yields a record |
| Index.ReadPlain | src/lib.rs:386-392 | a plain file reads back as its own page, section, path and summary, the summary without its leading "- " |
| Index.IndexIntended | src/lib.rs:364-397 | when every listed file is plain, the corrected cache is built and record i+1 is exactly the i-th file's intended record |
| Index.EmptySummaryAsWritten | src/lib.rs:385-390 | as written, a plain file without a summary gets the description "page (section) " |
| Index.EmptySummaryExample | src/lib.rs:385-390 | `foo.1.gz` without a NAME heading gets "foo (1) " as written and "" when corrected |
| Search.Collect | src/lib.rs:424-428 | a line is collected exactly when some visited record is accepted and shown as that line |
| Search.Format | src/lib.rs:426 | a record is shown as "page (section) - description", the format of both queries (also lib.rs:442) |
| Search.CollectMembers | src/lib.rs:424-428 | over a full iteration order, the collected lines are those of the accepted records, whatever the order |
| Search.DisplayIndexResults | src/lib.rs:452-466 | no results print "term: nothing appropriate"; otherwise the printed lines are the results' members, sorted by their lowercase form, with no equal neighbours |
| Search.DisplayDeterminedBySet | src/lib.rs:454-456 | results with the same members, no two equal up to case, print the same lines whatever their order |
| Search.WhatisSearch | src/lib.rs:420-433 | the printed lines are exactly "page (section) - description" of the records whose page is the term, sorted and without equal neighbours; "nothing appropriate" when there is none |
| Search.AproposSearch | src/lib.rs:436-449 | the same for the records whose page or description contains the term |
| Search.WhatisOrderIndependent | src/lib.rs:424-430 | whatis prints the same lines for every iteration order of the map, when no two lines differ only in case |
| Search.AproposOrderIndependent | src/lib.rs:440-446 | apropos prints the same lines for every iteration order of the map, when no two lines differ only in case |
| Search.FirstSection | src/lib.rs:263-285 | "No manual entry for page" exactly when no record has the page; otherwise the path rendered belongs to a record of the page and is least in lowercase order among them |
| Search.FirstSectionOrderIndependent | src/lib.rs:267-280 | every iteration order gives the same outcome up to letter case, and the same path when the page's paths are distinct up to case |
| Search.FirstSectionPrefersSectionOne | src/lib.rs:273-281 | a page found in sections 7 and 1, in that order, renders the section 1 file |

## Left out

- `Config::new`, `default_file_path`, `run` (the groff and less pipeline), `help` and `src/main.rs`: argument parsing, configuration files and process spawning. They are outside the indexing and search core.
- `extract_gzip`: the model takes each page's decompressed lines as input (`DirEntry.lines`). Decompression, open failures and `str::lines` splitting are not modelled.
- WalkDir traversal, link following, `is_file` and the skipping of unreadable entries: `list_all_sections` takes the discovered files as a sequence, in discovery order.
- The `regex` crate: the suffix pattern is coded by hand (`Scanner.ParseName`). Only ASCII letters count as letters, as in the pattern's `[a-zA-Z]`.
- bincode serialisation of the cache and `deserialise_index`: the queries take the cache as a value.
- HashMap iteration order: the queries take the order as a parameter that lists every key once. What is stated is the set of lines, their sortedness, and independence from that order.
- Unicode `to_lowercase`: lowercasing is ASCII only. `split_whitespace` uses the Unicode White_Space characters.
- Index.IndexCache: the id counter is a `nat`, so the `u32` wrap-around after 2^32 - 1 files is not modelled.
- Scanner.ListAllSections: the sort key is the section digit character rather than its parsed `u32`. The two give the same order for 1 to 9.
- Search.DisplayIndexResults: does not pin down the printed sequence when two results differ only in letter case. Their relative order then follows the input's order, and equal lines that are not neighbours after sorting are both kept. `Search.DisplayDeterminedBySet` pins the output only when no such pair exists.
- Search.FirstSection: hands back the chosen path instead of spawning the renderer.
- The tests under `tests/` are not modelled.

## Findings

| source | as written | input that shows it | evidently intended | confidence | as-written member | corrected member |
|---|---|---|---|---|---|---|
| src/lib.rs:311 | the bare-macro test `ends_with(".nd")` reads the line as written, although the branch was entered on the lowercased line | the page lines `.Sh NAME`, `.Nd`, `list directory contents` give the description ".nd" | test the lowercased line, so the summary comes from the next line: "- list directory contents" | medium, not executed | Parser.BareNdAsWritten | Parser.BareNdCorrected |
| src/lib.rs:385-390 | the description is the text before " /" cut at its last " - ", and without a summary there is no " - " to cut at | `foo.1.gz` at `/usr/share/man/man1/foo.1.gz` with no NAME heading gets the description "foo (1) " | an empty description for a page without a summary | high, not executed | Index.EmptySummaryAsWritten | Index.ReadPlain |

=== FILE: index.dfy ===
/** The index cache (`index_cache`, src/lib.rs:363-406): one record per
    listed page file, numbered from 1 in listing order.

    The original builds a line "page (section) summary path" for each file
    and then reads the record's fields back out of that line: the first two
    whitespace-separated tokens, the text before the first " /" cut at its
    last " - ", and the last token. `RecordFromLine` is that reading;
    `RecordFromLineAgrees` shows it recovers the parts the line was built
    from when none of them holds a character that would confuse it.

    When a page has no summary the line is "page (section)  path" and the
    description field becomes "page (section) " rather than empty
    (`EmptySummaryAsWritten`). `IndexCache` is the corrected build, which
    also uses the case-insensitive summary parser; `IndexCacheAsWritten` is
    the original. The queries take any cache. */
module Index {
  import opened Wrappers
  import opened Strings
  import opened Scanner
  import opened Parser

  /** One index entry (`Cache`, lib.rs:351-358). */
  datatype Record = Record(id: nat, page: string, section: string, description: string, filePath: string)

  /** The cache: records keyed by their id. */
  type Index = map<nat, Record>

  predicate NoSlash(s: string) {
    forall i :: 0 <= i < |s| ==> s[i] != '/'
  }

  /** "page (section)", the head of every entry line. */
  function Head(page: string, section: string): string {
    page + " (" + section + ")"
  }

  /** A page name and section that the token-based reading gets back intact. */
  predicate PlainHead(page: string, section: string) {
    && |page| > 0 && NoWhitespace(page) && NoSlash(page)
    && |section| > 0 && NoWhitespace(section) && NoSlash(section)
    && !IsParen(section[0]) && !IsParen(section[|section| - 1])
  }

  // ---------------------------------------------------------------------
  // The entry line

  /** `format_filename_description` (lib.rs:250-255) for a summary already
      read from the page: "page (section) summary", or None where the
      original panics because no `.` is left once `.gz` is gone. */
  function FormatFilenameDescription(fileName: string, summary: string): (r: Option<string>)
    ensures r.None? <==> '.' !in TrimEnd(fileName, ".gz")
    ensures Matches(fileName) ==>
      var p := ParseName(fileName).value;
      r == Some(Head(p.stem, [p.digit] + p.letters) + " " + summary)
  {
    TitleOfMatching(fileName);
    match Title(fileName)
    case None => None
    case Some((page, section)) => Some(Head(page, section) + " " + summary)
  }

  lemma TitleOfMatching(fileName: string)
    ensures Matches(fileName) ==>
      var p := ParseName(fileName).value;
      Title(fileName) == Some((p.stem, [p.digit] + p.letters))
  {
    if Matches(fileName) {
      TitleOfParsed(ParseName(fileName).value);
    }
  }

  /** The line `index_cache` builds for a listed file (lib.rs:371-376). */
  function EntryLine(e: DirEntry, summary: string): (r: string)
    requires Matches(e.fileName)
    ensures var p := ParseName(e.fileName).value;
      r == Head(p.stem, [p.digit] + p.letters) + " " + summary + " " + e.path
  {
    FormatFilenameDescription(e.fileName, summary).value + " " + e.path
  }

  /** The fields read back out of an entry line (lib.rs:383-391); None where
      the `split_once(" /").unwrap()` panics. */
  function RecordFromLine(id: nat, line: string): (r: Option<Record>)
    ensures r.None? <==> !Contains(line, " /")
    ensures r.Some? ==> r.value.id == id
  {
    var tokens := Tokens(line);
    match TextBefore(line, " /")
    case None => None
    case Some(before) =>
      Some(Record(id,
        if |tokens| > 0 then tokens[0] else "",
        if |tokens| > 1 then TrimParens(tokens[1]) else "",
        SplitLast(before, " - "),
        if |tokens| > 0 then tokens[|tokens| - 1] else ""))
  }

  // ---------------------------------------------------------------------
  // Reading a line back

  lemma HeadHasNoPathSeparator(page: string, section: string)
    requires PlainHead(page, section)
    ensures !Contains(Head(page, section), " /")
  {
    var h := Head(page, section);
    forall j | 0 <= j < |h|
      ensures h[j] != '/'
    {
      if j < |page| {
        assert h[j] == page[j];
      } else if |page| + 2 <= j < |page| + 2 + |section| {
        assert h[j] == section[j - |page| - 2];
      }
    }
    forall k
      ensures !Occurs(h, " /", k)
    {
      if 0 <= k && k + 2 <= |h| {
        assert h[k..k + 2][1] == h[k + 1];
      }
    }
  }

  lemma HeadHasNoDash(page: string, section: string)
    requires PlainHead(page, section)
    ensures !Contains(Head(page, section) + " ", " - ")
  {
    var h := Head(page, section) + " ";
    forall j | 0 <= j < |h| && j != |page| && j != |h| - 1
      ensures !IsWhitespace(h[j])
    {
      if j < |page| {
        assert h[j] == page[j];
      } else if |page| + 2 <= j < |page| + 2 + |section| {
        assert h[j] == section[j - |page| - 2];
      }
    }
    forall k
      ensures !Occurs(h, " - ", k)
    {
      if 0 <= k && k + 3 <= |h| {
        assert h[k..k + 3][0] == h[k];
        assert h[k..k + 3][1] == h[k + 1];
        if k == |page| {
          assert h[k + 1] == '(';
        }
      }
    }
  }

  /** The first " /" of a line is where the path begins, when the path
      starts with `/` and nothing before it holds " /". */
  lemma PathSeparatorAtJoin(x: string, path: string)
    requires |path| > 0 && path[0] == '/' && !Contains(x, " /")
    ensures TextBefore(x + " " + path, " /") == Some(x)
  {
    var line := x + " " + path;
    assert line == x + (" " + path);
    assert line[|x|..|x| + 2] == " /";
    forall k | 0 <= k < |x|
      ensures !Occurs(line, " /", k)
    {
      if k + 2 <= |x| {
        if Occurs(line, " /", k) {
          OccursWithinPrefix(x, " " + path, " /", k);
          ContainsAt(x, " /", k);
        }
      } else {
        assert k + 1 == |x| && line[k + 1] == ' ';
        assert line[k..k + 2][1] == line[k + 1];
      }
    }
    FindIs(line, " /", |x|);
    assert line[..|x|] == x;
  }

  /** A line that ends in " " and an absolute path holds " /". */
  lemma PathSeparatorAtEnd(x: string, path: string)
    requires StartsWith(path, "/")
    ensures Contains(x + " " + path, " /")
  {
    var line := x + " " + path;
    assert line[|x|..|x| + 2] == " /";
    ContainsAt(line, " /", |x|);
  }

  lemma NoPathSeparatorInPrefix(h: string, d: string)
    requires !Contains(h, " /") && !Contains(" " + d, " /") && (|h| > 0 ==> h[|h| - 1] != ' ')
    ensures !Contains(h + " " + d, " /")
  {
    var x := h + " " + d;
    assert x == h + (" " + d);
    forall k
      ensures !Occurs(x, " /", k)
    {
      if 0 <= k && k + 2 <= |x| {
        if k + 2 <= |h| {
          if Occurs(x, " /", k) {
            OccursWithinPrefix(h, " " + d, " /", k);
            ContainsAt(h, " /", k);
          }
        } else if k >= |h| {
          if Occurs(x, " /", k) {
            OccursWithinSuffix(h, " " + d, " /", k);
            ContainsAt(" " + d, " /", k - |h|);
          }
        } else {
          assert x[k..k + 2][0] == h[|h| - 1];
        }
      }
    }
  }

  lemma ParenWordPlain(section: string)
    requires NoWhitespace(section)
    ensures NoWhitespace("(" + section + ")")
  {
    var w := "(" + section + ")";
    forall j | 0 <= j < |w|
      ensures !IsWhitespace(w[j])
    {
      if 0 < j < |w| - 1 {
        assert w[j] == section[j - 1];
      }
    }
  }

  // Regroupings of an entry line and its tokens, each proved on its own so
  // that the proofs below stay small.

  lemma HeadSplit(page: string, section: string)
    ensures Head(page, section) == page + " " + ("(" + section + ")")
  {
  }

  lemma Regroup(p: string, w: string, d: string, path: string)
    ensures p + " " + w + " " + d + " " + path == p + " " + (w + " " + (d + " " + path))
  {
  }

  lemma ListRegroup(a: string, b: string, m: seq<string>, z: string)
    ensures [a] + ([b] + (m + [z])) == [a, b] + m + [z]
  {
  }

  lemma Ends(a: string, b: string, mid: seq<string>, z: string)
    ensures var t := [a, b] + mid + [z];
      |t| > 1 && t[0] == a && t[1] == b && t[|t| - 1] == z
  {
  }

  /** The tokens of an entry line: page, "(section)", the summary's words,
      and the path. */
  lemma EntryLineTokens(page: string, section: string, d: string, path: string)
    requires PlainHead(page, section) && |path| > 0 && NoWhitespace(path)
    ensures Tokens(Head(page, section) + " " + d + " " + path)
      == [page, "(" + section + ")"] + Tokens(d) + [path]
  {
    var w := "(" + section + ")";
    var rest := d + " " + path;
    ParenWordPlain(section);
    HeadSplit(page, section);
    Regroup(page, w, d, path);
    TokensSnoc(d, path);
    TokensCons(w, rest);
    assert Tokens(w + " " + rest) == [w] + (Tokens(d) + [path]);
    TokensCons(page, w + " " + rest);
    ListRegroup(page, w, Tokens(d), path);
  }

  /** The reading gets page, section and path back from a line built from
      plain parts; the description is the text before the path cut at its
      last " - ". */
  lemma RecordFromLineAgrees(id: nat, page: string, section: string, d: string, path: string)
    requires PlainHead(page, section)
    requires |path| > 0 && NoWhitespace(path) && path[0] == '/'
    requires !Contains(" " + d, " /")
    ensures RecordFromLine(id, Head(page, section) + " " + d + " " + path)
      == Some(Record(id, page, section, SplitLast(Head(page, section) + " " + d, " - "), path))
  {
    var h := Head(page, section);
    var line := h + " " + d + " " + path;
    HeadHasNoPathSeparator(page, section);
    NoPathSeparatorInPrefix(h, d);
    PathSeparatorAtJoin(h + " " + d, path);
    EntryLineTokens(page, section, d, path);
    var w := "(" + section + ")";
    Ends(page, w, Tokens(d), path);
    TrimParensWrapped(section);
    ReadFields(id, line, h + " " + d);
  }

  /** The fields `RecordFromLine` reads from a line holding " /" and at
      least two tokens. */
  lemma ReadFields(id: nat, line: string, before: string)
    requires TextBefore(line, " /") == Some(before) && |Tokens(line)| > 1
    ensures var t := Tokens(line);
      RecordFromLine(id, line) == Some(Record(id, t[0], TrimParens(t[1]), SplitLast(before, " - "), t[|t| - 1]))
  {
  }

  /** A summary "- text" gives the description "text" when the text holds
      no further " - ". */
  lemma DescriptionOfSummary(page: string, section: string, t: string)
    requires PlainHead(page, section) && !Contains(t, " - ")
    ensures SplitLast(Head(page, section) + " " + ("- " + t), " - ") == t
  {
    var h := Head(page, section);
    var s := h + " " + ("- " + t);
    assert s == (h + " ") + "- " + t;
    HeadHasNoDash(page, section);
    assert s[|h|..|h| + 3] == " - ";
    forall k | 0 <= k < |h|
      ensures !Occurs(s, " - ", k)
    {
      if Occurs(s, " - ", k) {
        if k + 3 <= |h| + 1 {
          OccursWithinPrefix(h + " ", "- " + t, " - ", k);
          ContainsAt(h + " ", " - ", k);
        }
      }
    }
    FindIs(s, " - ", |h|);
    assert s[|h| + 3..] == t;
  }

  /** An empty summary: the text before the path is "page (section) " and,
      holding no " - ", is the description as it stands. */
  lemma DescriptionOfEmptySummary(page: string, section: string)
    requires PlainHead(page, section)
    ensures SplitLast(Head(page, section) + " " + "", " - ") == Head(page, section) + " "
  {
    HeadHasNoDash(page, section);
    assert Head(page, section) + " " + "" == Head(page, section) + " ";
  }

  // ---------------------------------------------------------------------
  // Records and the cache

  /** The summary of a page, by the original parser or the corrected one. */
  function Summary(e: DirEntry, corrected: bool): string {
    if corrected then GetDescription(e.lines) else GetDescriptionAsWritten(e.lines)
  }

  /** A listed file as the second loop of `index_cache` sees it: the line
      built for it and the summary that went into that line. */
  datatype Listed = Listed(line: string, summary: string)

  /** How a listed file becomes the record with a given id; None where the
      original panics. */
  type Reader = (nat, Listed) -> Option<Record>

  /** The original reading: every field from the line. */
  function ReadAsWritten(id: nat, x: Listed): (r: Option<Record>)
    ensures r.None? <==> !Contains(x.line, " /")
    ensures r.Some? ==> r.value.id == id
  {
    RecordFromLine(id, x.line)
  }

  /** The corrected reading: an empty summary gives an empty description;
      otherwise as the original. */
  function ReadCorrected(id: nat, x: Listed): (r: Option<Record>)
    ensures r.None? <==> !Contains(x.line, " /")
    ensures r.Some? ==> r.value.id == id
    ensures r.Some? && x.summary == "" ==> r.value.description == ""
    ensures r.Some? && x.summary != "" ==> r == RecordFromLine(id, x.line)
    ensures r.Some? ==>
      r.value.(description := "") == RecordFromLine(id, x.line).value.(description := "")
  {
    match RecordFromLine(id, x.line)
    case None => None
    case Some(rec) => Some(if x.summary == "" then rec.(description := "") else rec)
  }

  /** The second loop of `index_cache` (lib.rs:380-397): the record for item
      `i` gets id `i + 1`; the build stops at the first item that cannot be
      read, with that item's line. */
  function Build(items: seq<Listed>, read: Reader): (r: Result<Index, string>)
    ensures r.Success? <==> forall i :: 0 <= i < |items| ==> read(i + 1, items[i]).Some?
    ensures r.Success? ==> forall id :: id in r.value <==> 1 <= id <= |items|
    ensures r.Success? ==> forall i :: 0 <= i < |items| ==> read(i + 1, items[i]) == Some(r.value[i + 1])
    ensures r.Failure? ==>
      exists i ::
        && 0 <= i < |items|
        && r.error == items[i].line
        && read(i + 1, items[i]).None?
        && (forall j :: 0 <= j < i ==> read(j + 1, items[j]).Some?)
    decreases |items|
  {
    if |items| == 0 then Success(map[])
    else
      var n := |items|;
      var front := items[..n - 1];
      assert forall i :: 0 <= i < n - 1 ==> front[i] == items[i];
      match Build(front, read)
      case Failure(line) => Failure(line)
      case Success(m) =>
        match read(n, items[n - 1])
        case None => Failure(items[n - 1].line)
        case Some(rec) => Success(m[n := rec])
  }

  /** What the first loop of `index_cache` (lib.rs:371-376) collects for each
      listed file. */
  function ListedOf(e: DirEntry, corrected: bool): Listed
    requires Matches(e.fileName)
  {
    var summary := Summary(e, corrected);
    Listed(EntryLine(e, summary), summary)
  }

  function Prepare(listed: seq<DirEntry>, corrected: bool): (r: seq<Listed>)
    requires forall i :: 0 <= i < |listed| ==> Matches(listed[i].fileName)
    ensures |r| == |listed|
    ensures forall i :: 0 <= i < |listed| ==> r[i] == ListedOf(listed[i], corrected)
  {
    seq(|listed|, i requires 0 <= i < |listed| => ListedOf(listed[i], corrected))
  }

  function ReaderFor(corrected: bool): Reader {
    if corrected then ReadCorrected else ReadAsWritten
  }

  /** Record `i + 1` of `m` is what the reader makes of listed file `i`. */
  predicate HoldsReadRecords(listed: seq<DirEntry>, corrected: bool, m: Index)
    requires forall i :: 0 <= i < |listed| ==> Matches(listed[i].fileName)
  {
    forall i :: 0 <= i < |listed| ==>
      i + 1 in m && ReaderFor(corrected)(i + 1, ListedOf(listed[i], corrected)) == Some(m[i + 1])
  }

  /** `line` is the entry line of a listed file, and it holds no " /". */
  predicate UnreadableLineOf(listed: seq<DirEntry>, corrected: bool, line: string)
    requires forall i :: 0 <= i < |listed| ==> Matches(listed[i].fileName)
  {
    exists i ::
      && 0 <= i < |listed|
      && line == EntryLine(listed[i], Summary(listed[i], corrected))
      && !Contains(line, " /")
  }

  /** The cache built from the listed files: ids 1..n in listing order, each
      record read from its file's line, the first unreadable line when one
      is not, and no failure when every path is absolute. */
  function IndexOf(listed: seq<DirEntry>, corrected: bool): (r: Result<Index, string>)
    requires forall i :: 0 <= i < |listed| ==> Matches(listed[i].fileName)
    ensures r.Success? ==> forall id :: id in r.value <==> 1 <= id <= |listed|
    ensures r.Success? ==> forall id :: id in r.value ==> r.value[id].id == id
    ensures r.Success? ==> HoldsReadRecords(listed, corrected, r.value)
    ensures r.Failure? ==> UnreadableLineOf(listed, corrected, r.error)
    ensures (forall i :: 0 <= i < |listed| ==> StartsWith(listed[i].path, "/")) ==> r.Success?
  {
    var r := Build(Prepare(listed, corrected), ReaderFor(corrected));
    BuiltKeys(listed, corrected, r);
    IdsMatchKeys(Prepare(listed, corrected), corrected, r);
    BuiltRecords(listed, corrected, r);
    FailedLine(listed, corrected, r);
    AllAbsoluteReadable(listed, corrected, r);
    r
  }

  lemma BuiltKeys(listed: seq<DirEntry>, corrected: bool, r: Result<Index, string>)
    requires forall i :: 0 <= i < |listed| ==> Matches(listed[i].fileName)
    requires r == Build(Prepare(listed, corrected), ReaderFor(corrected))
    ensures r.Success? ==> forall id :: id in r.value <==> 1 <= id <= |listed|
  {
  }

  lemma BuiltRecords(listed: seq<DirEntry>, corrected: bool, r: Result<Index, string>)
    requires forall i :: 0 <= i < |listed| ==> Matches(listed[i].fileName)
    requires r == Build(Prepare(listed, corrected), ReaderFor(corrected))
    ensures r.Success? ==> HoldsReadRecords(listed, corrected, r.value)
  {
  }

  lemma FailedLine(listed: seq<DirEntry>, corrected: bool, r: Result<Index, string>)
    requires forall i :: 0 <= i < |listed| ==> Matches(listed[i].fileName)
    requires r == Build(Prepare(listed, corrected), ReaderFor(corrected))
    ensures r.Failure? ==> UnreadableLineOf(listed, corrected, r.error)
  {
    if r.Failure? {
      var items := Prepare(listed, corrected);
      var i :| 0 <= i < |items| && r.error == items[i].line && ReaderFor(corrected)(i + 1, items[i]).None?;
      assert items[i] == ListedOf(listed[i], corrected);
    }
  }

  /** `index_cache` as written: the listed files, their summaries by the
      original parser, and every field read back from the line. */
  function IndexCacheAsWritten(files: seq<DirEntry>): (r: Result<Index, string>)
    ensures r.Success? ==> forall id :: id in r.value <==> 1 <= id <= |ListAllSections(files)|
    ensures r.Success? ==> forall id :: id in r.value ==> r.value[id].id == id
  {
    IndexOf(ListAllSections(files), false)
  }

  /** `index_cache` with the empty-summary fix and the case-insensitive
      parser. */
  function IndexCache(files: seq<DirEntry>): (r: Result<Index, string>)
    ensures r.Success? ==> forall id :: id in r.value <==> 1 <= id <= |ListAllSections(files)|
    ensures r.Success? ==> forall id :: id in r.value ==> r.value[id].id == id
    ensures (forall e :: e in files && Matches(e.fileName) ==> StartsWith(e.path, "/")) ==> r.Success?
  {
    ListedAreFiles(files);
    IndexOf(ListAllSections(files), true)
  }

  /** Every file `list_all_sections` keeps comes from its input. */
  lemma ListedAreFiles(files: seq<DirEntry>)
    ensures forall i :: 0 <= i < |ListAllSections(files)| ==> ListAllSections(files)[i] in files
  {
    var listed := ListAllSections(files);
    forall i | 0 <= i < |listed|
      ensures listed[i] in files
    {
      assert listed[i] in multiset(listed);
    }
  }

  /** A reader that stamps its id on the record gives a cache whose keys are
      the records' ids. */
  lemma IdsMatchKeys(items: seq<Listed>, corrected: bool, r: Result<Index, string>)
    requires r == Build(items, ReaderFor(corrected))
    ensures r.Success? ==> forall id :: id in r.value ==> r.value[id].id == id
  {
    if r.Success? {
      forall id | id in r.value
        ensures r.value[id].id == id
      {
        assert ReaderFor(corrected)(id - 1 + 1, items[id - 1]) == Some(r.value[id - 1 + 1]);
      }
    }
  }

  /** A listed file with an absolute path always yields a record. */
  lemma AbsolutePathReadable(id: nat, e: DirEntry, corrected: bool)
    requires Matches(e.fileName) && StartsWith(e.path, "/")
    ensures ReaderFor(corrected)(id, ListedOf(e, corrected)).Some?
  {
    var p := ParseName(e.fileName).value;
    var summary := Summary(e, corrected);
    PathSeparatorAtEnd(Head(p.stem, [p.digit] + p.letters) + " " + summary, e.path);
  }

  lemma AllAbsoluteReadable(listed: seq<DirEntry>, corrected: bool, r: Result<Index, string>)
    requires forall i :: 0 <= i < |listed| ==> Matches(listed[i].fileName)
    requires r == Build(Prepare(listed, corrected), ReaderFor(corrected))
    ensures (forall i :: 0 <= i < |listed| ==> StartsWith(listed[i].path, "/")) ==> r.Success?
  {
    if forall i :: 0 <= i < |listed| ==> StartsWith(listed[i].path, "/") {
      forall i | 0 <= i < |listed|
        ensures ReaderFor(corrected)(i + 1, Prepare(listed, corrected)[i]).Some?
      {
        AbsolutePathReadable(i + 1, listed[i], corrected);
      }
    }
  }

  // ---------------------------------------------------------------------
  // What a record is meant to hold

  /** A listed file whose parts the line-based reading gets back: a plain
      page name, an absolute path without whitespace, and a summary that is
      empty or "- text" with no " - " in the text and no " /" before the
      path. */
  predicate PlainEntry(e: DirEntry, summary: string)
    requires Matches(e.fileName)
  {
    var p := ParseName(e.fileName).value;
    && |p.stem| > 0 && NoWhitespace(p.stem) && NoSlash(p.stem)
    && |e.path| > 0 && NoWhitespace(e.path) && e.path[0] == '/'
    && (summary == "" || (StartsWith(summary, "- ") && !Contains(summary[2..], " - ")))
    && !Contains(" " + summary, " /")
  }

  /** The record a listed file stands for: its page name and section from
      the file name, its summary without the leading "- ", and its path. */
  function IntendedRecord(id: nat, e: DirEntry, summary: string): Record
    requires Matches(e.fileName)
  {
    var p := ParseName(e.fileName).value;
    Record(id, p.stem, [p.digit] + p.letters,
      if StartsWith(summary, "- ") then summary[2..] else summary, e.path)
  }

  lemma SectionIsPlain(p: NameParts, page: string)
    requires WellFormed(p) && |page| > 0 && NoWhitespace(page) && NoSlash(page)
    ensures PlainHead(page, [p.digit] + p.letters)
  {
    var s := [p.digit] + p.letters;
    forall j | 0 < j < |s|
      ensures IsAsciiLetter(s[j])
    {
      assert s[j] == p.letters[j - 1];
    }
  }

  lemma ReadCorrectedOf(id: nat, x: Listed, rec: Record)
    requires RecordFromLine(id, x.line) == Some(rec)
    ensures ReadCorrected(id, x) == Some(if x.summary == "" then rec.(description := "") else rec)
  {
  }

  lemma PlainLine(id: nat, e: DirEntry, summary: string)
    requires Matches(e.fileName) && PlainEntry(e, summary)
    ensures var p := ParseName(e.fileName).value;
      var section := [p.digit] + p.letters;
      RecordFromLine(id, EntryLine(e, summary))
        == Some(Record(id, p.stem, section, SplitLast(Head(p.stem, section) + " " + summary, " - "), e.path))
  {
    var p := ParseName(e.fileName).value;
    SectionIsPlain(p, p.stem);
    RecordFromLineAgrees(id, p.stem, [p.digit] + p.letters, summary, e.path);
  }

  lemma PlainDescription(e: DirEntry, summary: string)
    requires Matches(e.fileName) && PlainEntry(e, summary) && summary != ""
    ensures var p := ParseName(e.fileName).value;
      SplitLast(Head(p.stem, [p.digit] + p.letters) + " " + summary, " - ") == summary[2..]
  {
    var p := ParseName(e.fileName).value;
    SectionIsPlain(p, p.stem);
    assert summary == "- " + summary[2..];
    DescriptionOfSummary(p.stem, [p.digit] + p.letters, summary[2..]);
  }

  /** The line of a plain listed file reads back as the record the file
      stands for, once an empty summary gives an empty description. */
  lemma ReadPlain(id: nat, e: DirEntry, summary: string)
    requires Matches(e.fileName) && PlainEntry(e, summary)
    ensures ReadCorrected(id, Listed(EntryLine(e, summary), summary)) == Some(IntendedRecord(id, e, summary))
  {
    var p := ParseName(e.fileName).value;
    var section := [p.digit] + p.letters;
    var description := SplitLast(Head(p.stem, section) + " " + summary, " - ");
    PlainLine(id, e, summary);
    ReadCorrectedOf(id, Listed(EntryLine(e, summary), summary), Record(id, p.stem, section, description, e.path));
    if summary != "" {
      PlainDescription(e, summary);
    }
  }

  lemma IndexPlainSucceeds(listed: seq<DirEntry>)
    requires forall i :: 0 <= i < |listed| ==> Matches(listed[i].fileName)
    requires forall i :: 0 <= i < |listed| ==> PlainEntry(listed[i], Summary(listed[i], true))
    ensures IndexOf(listed, true).Success?
  {
    assert forall i :: 0 <= i < |listed| ==> StartsWith(listed[i].path, "/");
  }

  /** The corrected cache, when every listed file is plain: it is built,
      and record `i + 1` is the one the `i`-th listed file stands for. */
  lemma IndexIntended(listed: seq<DirEntry>) returns (m: Index)
    requires forall i :: 0 <= i < |listed| ==> Matches(listed[i].fileName)
    requires forall i :: 0 <= i < |listed| ==> PlainEntry(listed[i], Summary(listed[i], true))
    ensures IndexOf(listed, true) == Success(m)
    ensures forall i :: 0 <= i < |listed| ==>
      i + 1 in m && m[i + 1] == IntendedRecord(i + 1, listed[i], Summary(listed[i], true))
  {
    IndexPlainSucceeds(listed);
    m := IndexOf(listed, true).value;
    forall i | 0 <= i < |listed|
      ensures i + 1 in m && m[i + 1] == IntendedRecord(i + 1, listed[i], Summary(listed[i], true))
    {
      ReadPlain(i + 1, listed[i], Summary(listed[i], true));
    }
  }

  // ---------------------------------------------------------------------
  // The empty summary

  /** As written, a plain file with no summary gets "page (section) " as its
      description. */
  lemma EmptySummaryAsWritten(id: nat, e: DirEntry)
    requires Matches(e.fileName) && PlainEntry(e, "")
    ensures var p := ParseName(e.fileName).value;
      var section := [p.digit] + p.letters;
      ReadAsWritten(id, Listed(EntryLine(e, ""), ""))
        == Some(Record(id, p.stem, section, Head(p.stem, section) + " ", e.path))
  {
    var p := ParseName(e.fileName).value;
    SectionIsPlain(p, p.stem);
    PlainLine(id, e, "");
    DescriptionOfEmptySummary(p.stem, [p.digit] + p.letters);
  }

  lemma FooName()
    ensures ParseName("foo.1.gz") == Some(NameParts("foo", '1', ""))
  {
    var p := NameParts("foo", '1', "");
    assert Assemble(p) == "foo.1.gz";
    ParseNameComplete(p);
  }

  /** A page with no lines has no summary. */
  lemma EmptyPageNoSummary()
    ensures GetDescription([]) == "" && GetDescriptionAsWritten([]) == ""
  {
  }

  lemma FooPathPlain()
    ensures NoWhitespace("/usr/share/man/man1/foo.1.gz") && NoWhitespace("foo") && NoSlash("foo")
  {
  }

  lemma SpaceHasNoPathSeparator()
    ensures !Contains(" " + "", " /")
  {
    assert " " + "" == " ";
    assert Find(" ", " /") == None;
  }

  /** The file of the example below: a page with no NAME heading. */
  lemma FooEntry()
    ensures var e := DirEntry("/usr/share/man/man1/foo.1.gz", "foo.1.gz", []);
      && ParseName(e.fileName) == Some(NameParts("foo", '1', ""))
      && Summary(e, false) == "" && Summary(e, true) == ""
      && PlainEntry(e, "")
  {
    FooName();
    EmptyPageNoSummary();
    FooPathPlain();
    SpaceHasNoPathSeparator();
  }

  /** A page without a NAME heading, as written and corrected. */
  lemma EmptySummaryExample()
    ensures var e := DirEntry("/usr/share/man/man1/foo.1.gz", "foo.1.gz", []);
      ReadAsWritten(1, ListedOf(e, false)) == Some(Record(1, "foo", "1", "foo (1) ", e.path))
    ensures var e := DirEntry("/usr/share/man/man1/foo.1.gz", "foo.1.gz", []);
      ReadCorrected(1, ListedOf(e, true)) == Some(Record(1, "foo", "1", "", e.path))
  {
    var e := DirEntry("/usr/share/man/man1/foo.1.gz", "foo.1.gz", []);
    FooEntry();
    assert ['1'] + "" == "1";
    assert Head("foo", "1") + " " == "foo (1) ";
    EmptySummaryAsWritten(1, e);
    ReadPlain(1, e, "");
  }
}

=== FILE: parser.dfy ===
/** The description parser (`get_description`, src/lib.rs:288-349): a
    two-state scan over the lines of a decompressed page. The first state looks
    for a NAME section heading; the second takes the one-line summary from the
    first line after it that carries an mdoc `.Nd` macro or a man-page
    `name \- summary` separator. Every summary comes back lowercased and
    non-empty. It starts with "- " when it comes from a separator line, from
    the line after a bare marker, or from a `.nd` line that starts with
    ".nd ". Any other `.nd` line keeps the lowercased text before its first
    ".nd ", or gives the whole lowercased line when it holds no ".nd " (as a
    lone `.Nd` does under the original's case-sensitive test).

    One test in the original reads the line as written where the rest of the
    branch reads it lowercased (whether a `.Nd` line ends in the bare macro,
    lib.rs:311). The scan is written once, with `lowered` choosing that test:
    `GetDescriptionAsWritten` is the original, which `Index.IndexCacheAsWritten`
    uses; `GetDescription` is the case-insensitive reading, which
    `Index.IndexCache` uses. */
module Parser {
  import opened Wrappers
  import opened Strings

  /** A `.SH NAME` / `.Sh NAME` heading in any letter case, with or without
      quotes around NAME (lib.rs:306). */
  predicate IsNameMarker(line: string) {
    Contains(Lower(line), ".sh name") || Contains(Lower(line), ".sh \"name\"")
  }

  /** The line ends in a bare `.nd` macro, optionally followed by one space;
      `lowered` says whether that is judged on the lowercased line or on the
      line as written. */
  predicate EndsInBareNd(line: string, lowered: bool) {
    var l := if lowered then Lower(line) else line;
    EndsWith(l, ".nd") || EndsWith(l, ".nd ")
  }

  /** A separator line whose summary continues on the next line: it ends in
      `-`, `- `, `- \` or `- \ ` (lib.rs:326). */
  predicate EndsInOpenSeparator(line: string) {
    EndsWith(line, "-") || EndsWith(line, "- ") || EndsWith(line, "- \\") || EndsWith(line, "- \\ ")
  }

  /** The summary taken from the line after a bare marker; nothing when the
      page ends there. */
  function FromNext(next: Option<string>): (r: Option<string>)
    ensures next.None? <==> r.None?
    ensures r.Some? ==> StartsWith(r.value, "- ") && IsLowered(r.value)
  {
    match next
    case None => None
    case Some(f) => Some("- " + Lower(f))
  }

  lemma ReplacedIsLowered(low: string)
    requires IsLowered(low) && Contains(low, ".nd")
    ensures IsLowered(ReplaceFirst(low, ".nd ", "- "))
    ensures |ReplaceFirst(low, ".nd ", "- ")| > 0
  {
    var r := ReplaceFirst(low, ".nd ", "- ");
    if Contains(low, ".nd ") {
      var i := Find(low, ".nd ").value;
      assert r == low[..i] + "- " + low[i + 4..];
      forall j | 0 <= j < |r|
        ensures !('A' <= r[j] <= 'Z')
      {
        if j < i {
          assert r[j] == low[j];
        } else if j >= i + 2 {
          assert r[j] == low[j + 2];
        }
      }
    }
  }

  lemma SuffixLowered(low: string, t: string)
    requires IsLowered(low) && |t| <= |low| && t == low[|low| - |t|..]
    ensures IsLowered(t)
  {
    forall j | 0 <= j < |t|
      ensures !('A' <= t[j] <= 'Z')
    {
      assert t[j] == low[|low| - |t| + j];
    }
  }

  lemma DashLowered()
    ensures IsLowered("- ")
  {
  }

  lemma SeparatorSummaryLowered(low: string)
    requires IsLowered(low)
    ensures var d := "- " + SplitLast(low, "- "); |d| > 0 && IsLowered(d)
  {
    var t := SplitLast(low, "- ");
    SuffixLowered(low, t);
    DashLowered();
    LoweredConcat("- ", t);
  }

  /** What one line after the heading yields (the body of the inner loop,
      lib.rs:309-339), given the line after it: a summary, or None when the
      scan moves on to the next line. */
  function Candidate(line: string, next: Option<string>, lowered: bool): (r: Option<string>)
    ensures r.Some? ==> |r.value| > 0 && IsLowered(r.value)
  {
    var low := Lower(line);
    if Contains(low, ".nd") then
      if EndsInBareNd(line, lowered) then FromNext(next)
      else
        ReplacedIsLowered(low);
        Some(ReplaceFirst(low, ".nd ", "- "))
    else if Contains(line, "- ") || EndsWith(line, "-") then
      if EndsInOpenSeparator(line) then FromNext(next)
      else
        SeparatorSummaryLowered(low);
        Some("- " + SplitLast(low, "- "))
    else None
  }

  // ---------------------------------------------------------------------
  // The two-state scan, over any per-line step

  /** What the scan asks of each line after the heading: the line and the
      one after it (None at the end of the page) give a summary or None. */
  type Step = (string, Option<string>) -> Option<string>

  /** The step of `get_description`, with the bare-`.Nd` test chosen by `lowered`. */
  function StepFor(lowered: bool): Step {
    (line, next) => Candidate(line, next, lowered)
  }

  /** `step` for the line at index `i`, with the line after it if any. */
  function StepAt(lines: seq<string>, i: nat, step: Step): Option<string>
    requires i < |lines|
  {
    step(lines[i], if i + 1 < |lines| then Some(lines[i + 1]) else None)
  }

  /** State 2: the first summary found from index `i` on; "" at the end. */
  function ScanFrom(lines: seq<string>, i: nat, step: Step): string
    requires i <= |lines|
    decreases |lines| - i
  {
    if i == |lines| then ""
    else
      match StepAt(lines, i, step)
      case Some(d) => d
      case None => ScanFrom(lines, i + 1, step)
  }

  /** State 1: skip to the first NAME heading at or after `i`, then scan the
      lines after it; "" when there is no heading. */
  function SeekName(lines: seq<string>, i: nat, step: Step): string
    requires i <= |lines|
    decreases |lines| - i
  {
    if i == |lines| then ""
    else if IsNameMarker(lines[i]) then ScanFrom(lines, i + 1, step)
    else SeekName(lines, i + 1, step)
  }

  /** `get_description` as written (lib.rs:288-349). */
  function GetDescriptionAsWritten(lines: seq<string>): (r: string)
    ensures IsLowered(r)
  {
    SeekNameLowered(lines, 0, false);
    SeekName(lines, 0, StepFor(false))
  }

  /** `get_description` with the bare-`.Nd` test made case-insensitive. */
  function GetDescription(lines: seq<string>): (r: string)
    ensures IsLowered(r)
  {
    SeekNameLowered(lines, 0, true);
    SeekName(lines, 0, StepFor(true))
  }

  lemma StepForLowered(line: string, next: Option<string>, lowered: bool)
    ensures var r := StepFor(lowered)(line, next); r.Some? ==> IsLowered(r.value)
  {
    var r := Candidate(line, next, lowered);
    assert StepFor(lowered)(line, next) == r;
  }

  lemma {:induction false} ScanFromLowered(lines: seq<string>, i: nat, lowered: bool)
    requires i <= |lines|
    ensures IsLowered(ScanFrom(lines, i, StepFor(lowered)))
    decreases |lines| - i
  {
    if i < |lines| {
      var next := if i + 1 < |lines| then Some(lines[i + 1]) else None;
      StepForLowered(lines[i], next, lowered);
      if StepAt(lines, i, StepFor(lowered)).None? {
        ScanFromLowered(lines, i + 1, lowered);
      }
    }
  }

  lemma {:induction false} SeekNameLowered(lines: seq<string>, i: nat, lowered: bool)
    requires i <= |lines|
    ensures IsLowered(SeekName(lines, i, StepFor(lowered)))
    decreases |lines| - i
  {
    if i < |lines| {
      if IsNameMarker(lines[i]) {
        ScanFromLowered(lines, i + 1, lowered);
      } else {
        SeekNameLowered(lines, i + 1, lowered);
      }
    }
  }

  // ---------------------------------------------------------------------
  // The scan, characterised

  lemma {:induction false} ScanFromFirstHit(lines: seq<string>, i: nat, j: nat, step: Step)
    requires i <= j < |lines|
    requires forall k :: i <= k < j ==> StepAt(lines, k, step).None?
    requires StepAt(lines, j, step).Some?
    ensures ScanFrom(lines, i, step) == StepAt(lines, j, step).value
    decreases j - i
  {
    if i < j {
      ScanFromFirstHit(lines, i + 1, j, step);
    }
  }

  lemma {:induction false} ScanFromNoHit(lines: seq<string>, i: nat, step: Step)
    requires i <= |lines|
    requires forall k :: i <= k < |lines| ==> StepAt(lines, k, step).None?
    ensures ScanFrom(lines, i, step) == ""
    decreases |lines| - i
  {
    if i < |lines| {
      ScanFromNoHit(lines, i + 1, step);
    }
  }

  lemma {:induction false} SeekNameFirstMarker(lines: seq<string>, i: nat, m: nat, step: Step)
    requires i <= m < |lines| && IsNameMarker(lines[m])
    requires forall k :: i <= k < m ==> !IsNameMarker(lines[k])
    ensures SeekName(lines, i, step) == ScanFrom(lines, m + 1, step)
    decreases m - i
  {
    if i < m {
      assert !IsNameMarker(lines[i]);
      SeekNameFirstMarker(lines, i + 1, m, step);
    }
  }

  lemma {:induction false} NoHeadingFrom(lines: seq<string>, i: nat, step: Step)
    requires i <= |lines|
    requires forall k :: i <= k < |lines| ==> !IsNameMarker(lines[k])
    ensures SeekName(lines, i, step) == ""
    decreases |lines| - i
  {
    if i < |lines| {
      NoHeadingFrom(lines, i + 1, step);
    }
  }

  /** Without a NAME heading the summary is empty. */
  lemma NoHeadingNoDescription(lines: seq<string>, step: Step)
    requires forall k :: 0 <= k < |lines| ==> !IsNameMarker(lines[k])
    ensures SeekName(lines, 0, step) == ""
  {
    NoHeadingFrom(lines, 0, step);
  }

  /** The summary is what the first yielding line after the first NAME
      heading yields: later candidates, and later headings, are ignored. */
  lemma DescriptionIsFirstHit(lines: seq<string>, m: nat, j: nat, step: Step)
    requires m < j < |lines|
    requires IsNameMarker(lines[m]) && forall k :: 0 <= k < m ==> !IsNameMarker(lines[k])
    requires forall k :: m < k < j ==> StepAt(lines, k, step).None?
    requires StepAt(lines, j, step).Some?
    ensures SeekName(lines, 0, step) == StepAt(lines, j, step).value
  {
    SeekNameFirstMarker(lines, 0, m, step);
    ScanFromFirstHit(lines, m + 1, j, step);
  }

  /** When no line after the first NAME heading yields, the summary is empty. */
  lemma NoHitNoDescription(lines: seq<string>, m: nat, step: Step)
    requires m < |lines|
    requires IsNameMarker(lines[m]) && forall k :: 0 <= k < m ==> !IsNameMarker(lines[k])
    requires forall k :: m < k < |lines| ==> StepAt(lines, k, step).None?
    ensures SeekName(lines, 0, step) == ""
  {
    SeekNameFirstMarker(lines, 0, m, step);
    ScanFromNoHit(lines, m + 1, step);
  }

  /** A non-empty summary always comes from a yielding line after the first
      NAME heading (the converse of the two lemmas above). */
  lemma {:induction false} DescriptionHasSource(lines: seq<string>, i: nat, step: Step) returns (m: nat, j: nat)
    requires i <= |lines|
    requires SeekName(lines, i, step) != ""
    ensures i <= m < j < |lines|
    ensures IsNameMarker(lines[m]) && forall k :: i <= k < m ==> !IsNameMarker(lines[k])
    ensures forall k :: m < k < j ==> StepAt(lines, k, step).None?
    ensures StepAt(lines, j, step) == Some(SeekName(lines, i, step))
    decreases |lines| - i
  {
    assert i < |lines|;
    if IsNameMarker(lines[i]) {
      assert SeekName(lines, i, step) == ScanFrom(lines, i + 1, step);
      m := i;
      j := ScanSource(lines, i + 1, step);
    } else {
      assert SeekName(lines, i, step) == SeekName(lines, i + 1, step);
      m, j := DescriptionHasSource(lines, i + 1, step);
      forall k | i <= k < m
        ensures !IsNameMarker(lines[k])
      {
        if k == i {
        }
      }
    }
  }

  lemma {:induction false} ScanSource(lines: seq<string>, i: nat, step: Step) returns (j: nat)
    requires i <= |lines|
    requires ScanFrom(lines, i, step) != ""
    ensures i <= j < |lines|
    ensures forall k :: i <= k < j ==> StepAt(lines, k, step).None?
    ensures StepAt(lines, j, step) == Some(ScanFrom(lines, i, step))
    decreases |lines| - i
  {
    assert i < |lines|;
    if StepAt(lines, i, step).Some? {
      j := i;
    } else {
      assert ScanFrom(lines, i, step) == ScanFrom(lines, i + 1, step);
      j := ScanSource(lines, i + 1, step);
    }
  }

  // ---------------------------------------------------------------------
  // The two kinds of summary line

  /** An mdoc `.Nd text` line: the lowercased line with its first `.nd `
      turned into `- `. */
  lemma NdInline(line: string, next: Option<string>, lowered: bool)
    requires Contains(Lower(line), ".nd ") && !EndsInBareNd(line, lowered)
    ensures exists i ::
      && Occurs(Lower(line), ".nd ", i)
      && (forall k :: 0 <= k < i ==> !Occurs(Lower(line), ".nd ", k))
      && Candidate(line, next, lowered) == Some(Lower(line)[..i] + "- " + Lower(line)[i + 4..])
  {
    var low := Lower(line);
    var i := Find(low, ".nd ").value;
    assert Occurs(low, ".nd", i) by {
      assert low[i..i + 3] == low[i..i + 4][..3];
    }
    ContainsAt(low, ".nd", i);
    assert Candidate(line, next, lowered) == Some(low[..i] + "- " + low[i + 4..]);
  }

  /** A `.nd` line with no ".nd " that does not end in the bare macro (such
      as "foo.ndx", or ".Nd" judged as written): `replacen` finds nothing to
      replace, so the summary is the whole lowercased line. */
  lemma NdWithoutSpace(line: string, next: Option<string>, lowered: bool)
    requires Contains(Lower(line), ".nd") && !Contains(Lower(line), ".nd ")
    requires !EndsInBareNd(line, lowered)
    ensures Candidate(line, next, lowered) == Some(Lower(line))
  {
  }

  /** The separator branch of `Candidate` for a line that does not end open. */
  lemma CandidateSeparator(line: string, next: Option<string>, lowered: bool)
    requires !Contains(Lower(line), ".nd")
    requires Contains(line, "- ") && !EndsInOpenSeparator(line)
    ensures Candidate(line, next, lowered) == Some("- " + SplitLast(Lower(line), "- "))
  {
  }

  /** `t` is what follows the last "- " of `low`: it ends `low`, a "- "
      comes just before it, and it holds no "- " of its own. */
  predicate FollowsLastSeparator(low: string, t: string) {
    && EndsWith(low, t)
    && !Contains(t, "- ")
    && EndsWith(low[..|low| - |t|], "- ")
  }

  lemma SeparatorSuffix(low: string)
    requires Contains(low, "- ")
    ensures FollowsLastSeparator(low, SplitLast(low, "- "))
  {
  }

  /** A `name \- summary` line: "- " and then the text that follows the last
      "- " of the lowercased line. */
  lemma SeparatorInline(line: string, next: Option<string>, lowered: bool)
    requires !Contains(Lower(line), ".nd")
    requires Contains(line, "- ") && !EndsInOpenSeparator(line)
    ensures var t := SplitLast(Lower(line), "- ");
      Candidate(line, next, lowered) == Some("- " + t) && FollowsLastSeparator(Lower(line), t)
  {
    var low := Lower(line);
    var k := Find(line, "- ").value;
    OccursLower(line, "- ", k);
    ContainsAt(low, "- ", k);
    SeparatorSuffix(low);
    CandidateSeparator(line, next, lowered);
  }

  /** The bare-marker branch of `Candidate`. */
  lemma CandidateBareNd(line: string, next: Option<string>, lowered: bool)
    requires Contains(Lower(line), ".nd") && EndsInBareNd(line, lowered)
    ensures Candidate(line, next, lowered) == FromNext(next)
  {
  }

  /** The open-separator branch of `Candidate`. */
  lemma CandidateOpenSeparator(line: string, next: Option<string>, lowered: bool)
    requires !Contains(Lower(line), ".nd") && EndsInOpenSeparator(line)
    requires Contains(line, "- ") || EndsWith(line, "-")
    ensures Candidate(line, next, lowered) == FromNext(next)
  {
  }

  /** A line ending in "- " holds "- ". */
  lemma EndsInDashSpace(line: string, back: nat)
    requires 2 + back <= |line|
    requires line[|line| - 2 - back] == '-' && line[|line| - 1 - back] == ' '
    ensures Contains(line, "- ")
  {
    var n := |line| - 2 - back;
    assert line[n..n + 2] == "- ";
    ContainsAt(line, "- ", n);
  }

  /** Every open separator ending is a separator line. */
  lemma OpenSeparatorIsSeparator(line: string)
    requires EndsInOpenSeparator(line)
    ensures Contains(line, "- ") || EndsWith(line, "-")
  {
    var n := |line|;
    if !EndsWith(line, "-") {
      if EndsWith(line, "- ") {
        assert line[n - 2..][0] == '-' && line[n - 2..][1] == ' ';
        EndsInDashSpace(line, 0);
      } else if EndsWith(line, "- \\") {
        assert line[n - 3..][0] == '-' && line[n - 3..][1] == ' ';
        EndsInDashSpace(line, 1);
      } else {
        assert EndsWith(line, "- \\ ");
        assert line[n - 4..][0] == '-' && line[n - 4..][1] == ' ';
        EndsInDashSpace(line, 2);
      }
    }
  }

  /** A bare marker followed by a line: "- " and that line, lowercased. */
  lemma BareMarkerTakesNextLine(line: string, following: string, lowered: bool)
    requires (Contains(Lower(line), ".nd") && EndsInBareNd(line, lowered))
      || (!Contains(Lower(line), ".nd") && EndsInOpenSeparator(line))
    ensures Candidate(line, Some(following), lowered) == Some("- " + Lower(following))
  {
    if Contains(Lower(line), ".nd") {
      CandidateBareNd(line, Some(following), lowered);
    } else {
      OpenSeparatorIsSeparator(line);
      CandidateOpenSeparator(line, Some(following), lowered);
    }
  }

  /** The lines that yield nothing: a line with neither a `.nd` macro nor a
      separator, and a bare marker on the last line of the page. */
  lemma CandidateNoneIff(line: string, next: Option<string>, lowered: bool)
    ensures Candidate(line, next, lowered).None? <==>
      || (!Contains(Lower(line), ".nd") && !Contains(line, "- ") && !EndsWith(line, "-"))
      || (next.None? && Contains(Lower(line), ".nd") && EndsInBareNd(line, lowered))
      || (next.None? && !Contains(Lower(line), ".nd") && EndsInOpenSeparator(line))
  {
    if !Contains(Lower(line), ".nd") && EndsInOpenSeparator(line) {
      OpenSeparatorIsSeparator(line);
    }
  }

  // ---------------------------------------------------------------------
  // The two readings of the bare-`.Nd` test

  /** The two parsers differ only on a line whose bare-`.Nd` ending shows in
      one letter case and not the other. */
  lemma ParsersAgree(lines: seq<string>)
    requires forall k :: 0 <= k < |lines| ==> EndsInBareNd(lines[k], true) == EndsInBareNd(lines[k], false)
    ensures GetDescription(lines) == GetDescriptionAsWritten(lines)
  {
    forall k | 0 <= k < |lines|
      ensures StepAt(lines, k, StepFor(true)) == StepAt(lines, k, StepFor(false))
    {
      var next := if k + 1 < |lines| then Some(lines[k + 1]) else None;
      assert Candidate(lines[k], next, true) == Candidate(lines[k], next, false);
    }
    SeekNameAgree(lines, 0, StepFor(true), StepFor(false));
  }

  lemma {:induction false} SeekNameAgree(lines: seq<string>, i: nat, s1: Step, s2: Step)
    requires i <= |lines|
    requires forall k :: 0 <= k < |lines| ==> StepAt(lines, k, s1) == StepAt(lines, k, s2)
    ensures SeekName(lines, i, s1) == SeekName(lines, i, s2)
    decreases |lines| - i
  {
    if i < |lines| {
      if IsNameMarker(lines[i]) {
        ScanAgree(lines, i + 1, s1, s2);
      } else {
        SeekNameAgree(lines, i + 1, s1, s2);
      }
    }
  }

  lemma {:induction false} ScanAgree(lines: seq<string>, i: nat, s1: Step, s2: Step)
    requires i <= |lines|
    requires forall k :: 0 <= k < |lines| ==> StepAt(lines, k, s1) == StepAt(lines, k, s2)
    ensures ScanFrom(lines, i, s1) == ScanFrom(lines, i, s2)
    decreases |lines| - i
  {
    if i < |lines| {
      ScanAgree(lines, i + 1, s1, s2);
    }
  }

  /** The page of the two examples below: a NAME heading, a bare `.Nd`
      and the summary on the line after it. */
  const NdPage: seq<string> := [".Sh NAME", ".Nd", "list directory contents"]

  lemma NdPageHeading()
    ensures IsNameMarker(NdPage[0])
  {
    assert Lower(".Sh NAME") == ".sh name";
    ContainsAt(".sh name", ".sh name", 0);
  }

  lemma LowerNd()
    ensures Lower(".Nd") == ".nd"
  {
  }

  lemma NdNotBareAsWritten()
    ensures !EndsInBareNd(".Nd", false)
  {
    assert ".Nd"[0..] != ".nd" by {
      assert ".Nd"[0..][1] == 'N';
    }
  }

  lemma NdReplacedNothing()
    ensures ReplaceFirst(".nd", ".nd ", "- ") == ".nd"
  {
    assert Find(".nd", ".nd ") == None;
  }

  /** An mdoc page whose `.Nd` macro stands alone on its line (the usual
      capital-N spelling): the original returns the macro itself. */
  lemma BareNdAsWritten()
    ensures GetDescriptionAsWritten(NdPage) == ".nd"
  {
    NdPageHeading();
    LowerNd();
    ContainsAt(".nd", ".nd", 0);
    NdNotBareAsWritten();
    NdReplacedNothing();
    assert Candidate(".Nd", Some("list directory contents"), false) == Some(".nd");
    assert StepAt(NdPage, 1, StepFor(false)) == Some(".nd");
    DescriptionIsFirstHit(NdPage, 0, 1, StepFor(false));
  }

  /** With the case-insensitive test, a bare `.Nd` in any letter case takes
      the summary from the line after it. */
  lemma BareNdCorrected(line: string, following: string)
    requires Lower(line) == ".nd" || Lower(line) == ".nd "
    ensures Candidate(line, Some(following), true) == Some("- " + Lower(following))
  {
    ContainsAt(Lower(line), ".nd", 0);
    BareMarkerTakesNextLine(line, following, true);
  }

  lemma SummaryLine()
    ensures "- " + Lower("list directory contents") == "- list directory contents"
  {
    assert IsLowered("list directory contents");
    LowerOfLowered("list directory contents");
  }

  /** The same page read with the case-insensitive test. */
  lemma BareNdCorrectedExample()
    ensures GetDescription(NdPage) == "- list directory contents"
  {
    NdPageHeading();
    LowerNd();
    BareNdCorrected(".Nd", "list directory contents");
    SummaryLine();
    assert StepAt(NdPage, 1, StepFor(true)) == Some("- list directory contents");
    DescriptionIsFirstHit(NdPage, 0, 1, StepFor(true));
  }
}

=== FILE: scanner.dfy ===
/** The page files `list_all_sections` keeps (src/lib.rs:220-242) and the
    title `format_filename_description` reads off a file name
    (lib.rs:250-255).

    A page file is one whose name matches the suffix pattern
    `\.([1-9])[a-zA-Z]*\.gz$`: a dot, a section digit 1-9, any ASCII letters,
    and `.gz` at the end. The pattern is written out by hand here as
    `ParseName`, which splits a matching name into its parts; the captured
    digit is the sort key. */
module Scanner {
  import opened Wrappers
  import opened Strings
  import opened Sorting

  /** A regular file found under the page directory: its full path, its
      file name, and the lines of its decompressed contents. */
  datatype DirEntry = DirEntry(path: string, fileName: string, lines: seq<string>)

  predicate IsSectionDigit(c: char) {
    '1' <= c <= '9'
  }

  predicate IsAsciiLetter(c: char) {
    ('a' <= c <= 'z') || ('A' <= c <= 'Z')
  }

  predicate AllLetters(s: string) {
    forall i :: 0 <= i < |s| ==> IsAsciiLetter(s[i])
  }

  /** A page file name taken apart: `stem.<digit><letters>.gz`. */
  datatype NameParts = NameParts(stem: string, digit: char, letters: string)

  predicate WellFormed(p: NameParts) {
    IsSectionDigit(p.digit) && AllLetters(p.letters)
  }

  /** The file name the parts make. */
  function Assemble(p: NameParts): string {
    p.stem + "." + [p.digit] + p.letters + ".gz"
  }

  /** Length of the longest run of ASCII letters that ends `s`. */
  function TrailingLetters(s: string): (n: nat)
    ensures n <= |s|
    ensures forall i :: |s| - n <= i < |s| ==> IsAsciiLetter(s[i])
    ensures n < |s| ==> !IsAsciiLetter(s[|s| - n - 1])
    decreases |s|
  {
    if |s| > 0 && IsAsciiLetter(s[|s| - 1]) then TrailingLetters(s[..|s| - 1]) + 1
    else 0
  }

  /** The run is exactly `n` long when the last `n` characters are letters
      and the one before them, if any, is not. */
  lemma {:induction false} TrailingLettersIs(s: string, n: nat)
    requires n <= |s|
    requires forall i :: |s| - n <= i < |s| ==> IsAsciiLetter(s[i])
    requires n < |s| ==> !IsAsciiLetter(s[|s| - n - 1])
    ensures TrailingLetters(s) == n
    decreases n
  {
    if n > 0 {
      TrailingLettersIs(s[..|s| - 1], n - 1);
    }
  }

  lemma {:induction false} TrailingLettersExact(a: string, b: string)
    requires |a| > 0 && !IsAsciiLetter(a[|a| - 1]) && AllLetters(b)
    ensures TrailingLetters(a + b) == |b|
  {
    TrailingLettersIs(a + b, |b|);
  }

  lemma LettersFrom(t: string, k: nat)
    requires k <= |t| && forall i :: k <= i < |t| ==> IsAsciiLetter(t[i])
    ensures AllLetters(t[k..])
  {
  }

  /** The suffix pattern, matched by hand: the parts of a matching name, or
      None. The letters run is the longest one before `.gz`, so a matching
      name has exactly one decomposition. */
  function ParseName(name: string): (r: Option<NameParts>)
    ensures r.Some? ==> WellFormed(r.value) && Assemble(r.value) == name
  {
    if !EndsWith(name, ".gz") then None
    else
      var t := name[..|name| - 3];
      var rest := t[..|t| - TrailingLetters(t)];
      if |rest| >= 2 && rest[|rest| - 2] == '.' && IsSectionDigit(rest[|rest| - 1]) then
        var p := NameParts(rest[..|rest| - 2], rest[|rest| - 1], t[|rest|..]);
        LettersFrom(t, |rest|);
        assert Assemble(p) == name by {
          assert rest[..|rest| - 2] + "." + [rest[|rest| - 1]] == rest;
          assert rest + t[|rest|..] == t;
          assert t + ".gz" == name;
        }
        Some(p)
      else None
  }

  /** Every well-formed decomposition is the one `ParseName` finds. */
  lemma ParseNameComplete(p: NameParts)
    requires WellFormed(p)
    ensures ParseName(Assemble(p)) == Some(p)
  {
    var name := Assemble(p);
    var head := p.stem + "." + [p.digit];
    var t := head + p.letters;
    assert name == t + ".gz";
    assert name[..|name| - 3] == t;
    TrailingLettersExact(head, p.letters);
    assert t[..|t| - |p.letters|] == head;
    assert head[..|head| - 2] == p.stem;
    assert t[|head|..] == p.letters;
  }

  /** The name matches the suffix pattern. */
  predicate Matches(name: string) {
    ParseName(name).Some?
  }

  /** `Matches` is the pattern: a name matches exactly when it is some
      `stem.<digit 1-9><ASCII letters>.gz`. */
  lemma MatchesIff(name: string)
    ensures Matches(name) <==> exists p :: WellFormed(p) && Assemble(p) == name
  {
    if exists p :: WellFormed(p) && Assemble(p) == name {
      var p :| WellFormed(p) && Assemble(p) == name;
      ParseNameComplete(p);
    }
  }

  /** Names in the pattern: a bare digit, and a digit with letters. */
  lemma MatchExamples()
    ensures Matches("ls.1.gz") && Matches("openssl.1ssl.gz")
  {
    assert Assemble(NameParts("ls", '1', "")) == "ls.1.gz";
    ParseNameComplete(NameParts("ls", '1', ""));
    assert Assemble(NameParts("openssl", '1', "ssl")) == "openssl.1ssl.gz";
    ParseNameComplete(NameParts("openssl", '1', "ssl"));
  }

  /** A two-digit section is outside the pattern. */
  lemma TwoDigitsDoNotMatch()
    ensures !Matches("ls.10.gz")
  {
    assert "ls.10.gz"[..5] == "ls.10";
    assert TrailingLetters("ls.10") == 0;
  }

  /** Section 0 is outside the pattern. */
  lemma SectionZeroDoesNotMatch()
    ensures !Matches("ls.0.gz")
  {
    assert "ls.0.gz"[..4] == "ls.0";
    assert TrailingLetters("ls.0") == 0;
  }

  // ---------------------------------------------------------------------
  // Listing and sorting

  /** The section digit the pattern captures; "" for a name outside it. */
  function EntryKey(e: DirEntry): string {
    match ParseName(e.fileName)
    case Some(p) => [p.digit]
    case None => ""
  }

  /** The captured digit of a matching entry. */
  function SectionDigit(e: DirEntry): char
    requires Matches(e.fileName)
  {
    ParseName(e.fileName).value.digit
  }

  /** The files whose names match the pattern, in walk order: the files of
      each section come out in the order the walk found them. */
  function Matching(files: seq<DirEntry>): (r: seq<DirEntry>)
    ensures forall e :: e in r <==> e in files && Matches(e.fileName)
    ensures forall e :: multiset(r)[e] == if Matches(e.fileName) then multiset(files)[e] else 0
    ensures forall k :: k != "" ==> WithKey(r, EntryKey, k) == WithKey(files, EntryKey, k)
    decreases |files|
  {
    if |files| == 0 then []
    else
      assert files == [files[0]] + files[1..];
      assert multiset(files) == multiset{files[0]} + multiset(files[1..]);
      var rest := Matching(files[1..]);
      MatchingStep(files, rest);
      (if Matches(files[0].fileName) then [files[0]] else []) + rest
  }

  /** One step of the filter keeps the per-section walk order. */
  lemma MatchingStep(files: seq<DirEntry>, rest: seq<DirEntry>)
    requires |files| > 0
    requires forall k :: k != "" ==> WithKey(rest, EntryKey, k) == WithKey(files[1..], EntryKey, k)
    ensures var r := (if Matches(files[0].fileName) then [files[0]] else []) + rest;
      forall k :: k != "" ==> WithKey(r, EntryKey, k) == WithKey(files, EntryKey, k)
  {
    var r := (if Matches(files[0].fileName) then [files[0]] else []) + rest;
    forall k | k != ""
      ensures WithKey(r, EntryKey, k) == WithKey(files, EntryKey, k)
    {
      if Matches(files[0].fileName) {
        ConsTail(files[0], rest);
      } else {
        assert r == rest;
      }
    }
  }

  /** Files that all match have no entry under the empty key. */
  lemma {:induction false} NoEmptyKey(s: seq<DirEntry>)
    requires forall i :: 0 <= i < |s| ==> Matches(s[i].fileName)
    ensures WithKey(s, EntryKey, "") == []
    decreases |s|
  {
    if |s| > 0 {
      NoEmptyKey(s[1..]);
    }
  }

  lemma LexLeSingle(a: char, b: char)
    ensures LexLe([a], [b]) <==> a <= b
  {
    assert [a][1..] == [] && [b][1..] == [];
  }

  /** `list_all_sections` on the files the walk produced: the matching ones,
      sorted by section digit, ties kept in walk order. */
  function ListAllSections(files: seq<DirEntry>): (r: seq<DirEntry>)
    ensures forall e :: multiset(r)[e] == if Matches(e.fileName) then multiset(files)[e] else 0
    ensures forall i :: 0 <= i < |r| ==> Matches(r[i].fileName)
    ensures forall i, j :: 0 <= i < j < |r| ==> SectionDigit(r[i]) <= SectionDigit(r[j])
    ensures forall k :: k != "" ==> WithKey(r, EntryKey, k) == WithKey(files, EntryKey, k)
  {
    var m := Matching(files);
    var r := SortBy(m, EntryKey);
    SortedAllMatch(files, r);
    DigitsAscending(r);
    r
  }

  lemma SortedAllMatch(files: seq<DirEntry>, r: seq<DirEntry>)
    requires multiset(r) == multiset(Matching(files))
    ensures forall i :: 0 <= i < |r| ==> Matches(r[i].fileName)
  {
    forall i | 0 <= i < |r|
      ensures Matches(r[i].fileName)
    {
      assert r[i] in multiset(r);
      assert r[i] in Matching(files);
    }
  }

  lemma DigitsAscending(r: seq<DirEntry>)
    requires forall i :: 0 <= i < |r| ==> Matches(r[i].fileName)
    requires SortedBy(r, EntryKey)
    ensures forall i, j :: 0 <= i < j < |r| ==> SectionDigit(r[i]) <= SectionDigit(r[j])
  {
    forall i, j | 0 <= i < j < |r|
      ensures SectionDigit(r[i]) <= SectionDigit(r[j])
    {
      assert LexLe(EntryKey(r[i]), EntryKey(r[j]));
      LexLeSingle(SectionDigit(r[i]), SectionDigit(r[j]));
    }
  }

  /** The listing is the only sequence of matching files that is sorted by
      digit and holds, section by section, the walk's files in walk order. */
  lemma ListAllSectionsUnique(files: seq<DirEntry>, t: seq<DirEntry>)
    requires forall i :: 0 <= i < |t| ==> Matches(t[i].fileName)
    requires SortedBy(t, EntryKey)
    requires forall k :: k != "" ==> WithKey(t, EntryKey, k) == WithKey(files, EntryKey, k)
    ensures t == ListAllSections(files)
  {
    var m := Matching(files);
    forall i | 0 <= i < |m|
      ensures Matches(m[i].fileName)
    {
      assert m[i] in m;
    }
    NoEmptyKey(t);
    NoEmptyKey(m);
    StableSortUnique(m, t, EntryKey);
  }

  // ---------------------------------------------------------------------
  // The title of a page file

  /** The index of the last `c` in `s`. */
  function LastIndexOf(s: string, c: char): (r: Option<nat>)
    ensures r.Some? ==> r.value < |s| && s[r.value] == c
    ensures r.Some? ==> forall i :: r.value < i < |s| ==> s[i] != c
    ensures r.None? ==> forall i :: 0 <= i < |s| ==> s[i] != c
    decreases |s|
  {
    if |s| == 0 then None
    else if s[|s| - 1] == c then Some(|s| - 1)
    else LastIndexOf(s[..|s| - 1], c)
  }

  /** The page name and section of a file name: every trailing `.gz`
      removed, then split at the last `.`. None where the original's second
      `unwrap` panics: no `.` is left. */
  function Title(name: string): (r: Option<(string, string)>)
    ensures r.None? <==> '.' !in TrimEnd(name, ".gz")
    ensures r.Some? ==> TrimEnd(name, ".gz") == r.value.0 + "." + r.value.1 && '.' !in r.value.1
  {
    var t := TrimEnd(name, ".gz");
    match LastIndexOf(t, '.')
    case None => None
    case Some(i) =>
      assert t == t[..i] + "." + t[i + 1..];
      Some((t[..i], t[i + 1..]))
  }

  /** A name that ends in a section digit and letters does not end in `.gz`. */
  lemma SuffixNotGz(stem: string, suffix: string)
    requires |suffix| > 0 && IsSectionDigit(suffix[0]) && AllLetters(suffix[1..])
    ensures !EndsWith(stem + "." + suffix, ".gz")
  {
    var t := stem + "." + suffix;
    if |t| >= 3 {
      var tail := t[|t| - 3..];
      if |suffix| >= 4 {
        assert tail[0] == suffix[1..][|suffix| - 4];
        assert tail[0] != ".gz"[0];
      } else if |suffix| == 3 {
        assert tail[0] == suffix[0];
        assert tail[0] != ".gz"[0];
      } else if |suffix| == 2 {
        assert tail[1] == suffix[0];
        assert tail[1] != ".gz"[1];
      } else {
        assert tail[2] == suffix[0];
        assert tail[2] != ".gz"[2];
      }
    }
  }

  /** One trailing `.gz` comes off a name that has no second one under it. */
  lemma TrimEndOnce(t: string)
    requires !EndsWith(t, ".gz")
    ensures TrimEnd(t + ".gz", ".gz") == t
  {
    var name := t + ".gz";
    assert name[|name| - 3..] == ".gz";
    assert name[..|name| - 3] == t;
  }

  /** The last `.` of `stem.suffix` is the one after the stem when the
      suffix has none. */
  lemma LastDotAfterStem(stem: string, suffix: string)
    requires forall i :: 0 <= i < |suffix| ==> suffix[i] != '.'
    ensures LastIndexOf(stem + "." + suffix, '.') == Some(|stem|)
  {
    var d := stem + ".";
    assert |d| == |stem| + 1 && d[|stem|] == '.';
    var t := d + suffix;
    forall i | |d| <= i < |t|
      ensures t[i] != '.'
    {
      ConcatRight(d, suffix, i);
    }
    LastIndexOfIs(t, '.', |stem|);
  }

  lemma {:induction false} LastIndexOfIs(s: string, c: char, k: nat)
    requires k < |s| && s[k] == c
    requires forall i :: k < i < |s| ==> s[i] != c
    ensures LastIndexOf(s, c) == Some(k)
    decreases |s|
  {
    if k < |s| - 1 {
      LastIndexOfIs(s[..|s| - 1], c, k);
    }
  }

  lemma AssembleSplit(p: NameParts)
    ensures Assemble(p) == p.stem + "." + ([p.digit] + p.letters) + ".gz"
  {
  }

  lemma NoDotInSuffix(p: NameParts)
    requires WellFormed(p)
    ensures forall i :: 0 <= i < |[p.digit] + p.letters| ==> ([p.digit] + p.letters)[i] != '.'
  {
    var suffix := [p.digit] + p.letters;
    forall i | 0 <= i < |suffix|
      ensures suffix[i] != '.'
    {
      if i > 0 {
        assert suffix[i] == p.letters[i - 1];
      }
    }
  }

  /** The title of a matching name is its stem and its digit with letters:
      it never panics on a file the listing keeps. */
  lemma TitleOfParsed(p: NameParts)
    requires WellFormed(p)
    ensures Title(Assemble(p)) == Some((p.stem, [p.digit] + p.letters))
  {
    var suffix := [p.digit] + p.letters;
    var t := p.stem + "." + suffix;
    AssembleSplit(p);
    SplitConcat([p.digit], p.letters);
    SuffixNotGz(p.stem, suffix);
    TrimEndOnce(t);
    NoDotInSuffix(p);
    LastDotAfterStem(p.stem, suffix);
    SplitConcat(p.stem + ".", suffix);
    TakeConcat(p.stem, ".", |p.stem|);
    SplitConcat(p.stem, ".");
  }

  /** A name without a `.` once `.gz` is gone has no title. */
  lemma NoDotNoTitle()
    ensures Title("README.gz") == None
  {
    assert "README.gz"[..6] == "README";
    assert TrimEnd("README", ".gz") == "README";
    assert TrimEnd("README.gz", ".gz") == "README";
  }
}

=== FILE: search.dfy ===
/** The queries over the index cache (src/lib.rs:263-283, 419-466):
    `whatis` (exact page name), `apropos` (substring of the page name or the
    description), the shared display step, and `first_section`, which picks
    the page file to render when only a page name is given.

    The cache is a hash map, and the original walks it in the map's own
    iteration order. Here that order is a parameter, `order`, which lists
    every key once (`Enumerates`). The display step sorts its lines and
    `first_section` takes a least path, so the results do not depend on the
    order when no two lines (paths) differ only in letter case
    (`WhatisOrderIndependent`, `AproposOrderIndependent`,
    `FirstSectionOrderIndependent`). Lines or paths that differ only in case
    come out in the order the map gives them, as Rust's stable sort keeps
    them. */
module Search {
  import opened Wrappers
  import opened Strings
  import opened Sorting
  import opened Index

  /** The line a query shows for a record: "page (section) - description". */
  function Format(r: Record): string {
    r.page + " (" + r.section + ") - " + r.description
  }

  /** `order` is one iteration order of the map: every key once. */
  predicate Enumerates(order: seq<nat>, index: Index) {
    && (forall i :: 0 <= i < |order| ==> order[i] in index)
    && (forall k :: k in index ==> k in order)
    && (forall i, j :: 0 <= i < j < |order| ==> order[i] != order[j])
  }

  /** The lines `show` makes of the records `keep` accepts, visited in
      `order`. */
  function Collect(index: Index, order: seq<nat>, keep: Record -> bool, show: Record -> string): (r: seq<string>)
    requires forall i :: 0 <= i < |order| ==> order[i] in index
    ensures |r| <= |order|
    ensures forall x :: x in r <==>
      exists i :: 0 <= i < |order| && keep(index[order[i]]) && x == show(index[order[i]])
    decreases |order|
  {
    if |order| == 0 then []
    else
      var rest := Collect(index, order[1..], keep, show);
      var r := (if keep(index[order[0]]) then [show(index[order[0]])] else []) + rest;
      CollectShift(index, order, keep, show, rest, r);
      r
  }

  lemma CollectShift(index: Index, order: seq<nat>, keep: Record -> bool, show: Record -> string, rest: seq<string>, r: seq<string>)
    requires |order| > 0 && forall i :: 0 <= i < |order| ==> order[i] in index
    requires forall x :: x in rest <==>
      exists i :: 0 <= i < |order[1..]| && keep(index[order[1..][i]]) && x == show(index[order[1..][i]])
    requires r == (if keep(index[order[0]]) then [show(index[order[0]])] else []) + rest
    ensures forall x :: x in r <==>
      exists i :: 0 <= i < |order| && keep(index[order[i]]) && x == show(index[order[i]])
  {
    forall x
      ensures x in r <==>
        exists i :: 0 <= i < |order| && keep(index[order[i]]) && x == show(index[order[i]])
    {
      if x in rest {
        var i :| 0 <= i < |order[1..]| && keep(index[order[1..][i]]) && x == show(index[order[1..][i]]);
        assert order[1..][i] == order[i + 1];
      }
      if exists i :: 0 <= i < |order| && keep(index[order[i]]) && x == show(index[order[i]]) {
        var i :| 0 <= i < |order| && keep(index[order[i]]) && x == show(index[order[i]]);
        if i > 0 {
          assert order[1..][i - 1] == order[i];
        }
      }
    }
  }

  /** Over a full iteration order, the collected lines are those of the
      accepted records, whatever the order. */
  lemma CollectMembers(index: Index, order: seq<nat>, keep: Record -> bool, show: Record -> string)
    requires Enumerates(order, index)
    ensures forall x :: x in Collect(index, order, keep, show) <==>
      exists k :: k in index && keep(index[k]) && x == show(index[k])
  {
    forall x
      ensures x in Collect(index, order, keep, show) <==>
        exists k :: k in index && keep(index[k]) && x == show(index[k])
    {
      if exists k :: k in index && keep(index[k]) && x == show(index[k]) {
        var k :| k in index && keep(index[k]) && x == show(index[k]);
        var i :| 0 <= i < |order| && order[i] == k;
        assert keep(index[order[i]]) && x == show(index[order[i]]);
      }
    }
  }

  /** Something is collected exactly when some record is accepted. */
  lemma CollectNonEmpty(index: Index, order: seq<nat>, keep: Record -> bool, show: Record -> string)
    requires Enumerates(order, index)
    ensures |Collect(index, order, keep, show)| > 0 <==> exists k :: k in index && keep(index[k])
  {
    CollectMembers(index, order, keep, show);
    if exists k :: k in index && keep(index[k]) {
      var k :| k in index && keep(index[k]);
      assert show(index[k]) in Collect(index, order, keep, show);
    }
    if |Collect(index, order, keep, show)| > 0 {
      assert Collect(index, order, keep, show)[0] in Collect(index, order, keep, show);
    }
  }

  // ---------------------------------------------------------------------
  // Display

  /** The line printed when nothing matched. */
  function NothingAppropriate(term: string): string {
    term + ": nothing appropriate"
  }

  lemma MembersOfSorted(s: seq<string>)
    ensures forall x :: x in SortBy(s, Lower) <==> x in s
  {
    var t := SortBy(s, Lower);
    forall x
      ensures x in t <==> x in s
    {
      assert x in t <==> x in multiset(t);
      assert x in s <==> x in multiset(s);
    }
  }

  /** `display_index_results` (lib.rs:452-466): the lines it prints. The
      results are sorted by their lowercase form, runs of equal neighbours
      are collapsed, and an empty result prints one "nothing appropriate"
      line. */
  function DisplayIndexResults(results: seq<string>, term: string): (r: seq<string>)
    ensures |results| == 0 ==> r == [NothingAppropriate(term)]
    ensures |results| > 0 ==>
      && SortedBy(r, Lower)
      && NoAdjacentDuplicates(r)
      && (forall x :: x in r <==> x in results)
      && 0 < |r| <= |results|
  {
    var sorted := SortBy(results, Lower);
    MembersOfSorted(results);
    DedupSorted(sorted, Lower);
    var lines := Dedup(sorted);
    if |lines| == 0 then [NothingAppropriate(term)] else lines
  }

  // ---------------------------------------------------------------------
  // The displayed lines depend only on the set of results

  /** Keys strictly increase along `s`. */
  ghost predicate StrictlySorted(s: seq<string>) {
    forall i, j :: 0 <= i < j < |s| ==> LexLe(Lower(s[i]), Lower(s[j])) && Lower(s[i]) != Lower(s[j])
  }

  lemma SortedDistinctIsStrict(s: seq<string>)
    requires SortedBy(s, Lower) && NoAdjacentDuplicates(s)
    requires forall x, y :: x in s && y in s && Lower(x) == Lower(y) ==> x == y
    ensures StrictlySorted(s)
  {
    forall i, j | 0 <= i < j < |s|
      ensures Lower(s[i]) != Lower(s[j])
    {
      assert s[i] in s && s[i + 1] in s;
      assert Lower(s[i]) != Lower(s[i + 1]);
      assert LexLe(Lower(s[i + 1]), Lower(s[j])) by {
        if i + 1 < j {
          assert LexLe(Lower(s[i + 1]), Lower(s[j]));
        } else {
          LexLeReflexive(Lower(s[j]));
        }
      }
      LexLeSandwich(Lower(s[i]), Lower(s[i + 1]), Lower(s[j]));
    }
  }

  lemma FirstIsMember(s: seq<string>)
    ensures |s| > 0 ==> s[0] in s
  {
  }

  /** Two strictly sorted sequences with the same members are equal. */
  lemma {:induction false} StrictSortedUnique(a: seq<string>, b: seq<string>)
    requires StrictlySorted(a) && StrictlySorted(b)
    requires forall x :: x in a <==> x in b
    ensures a == b
    decreases |a|
  {
    if |a| == 0 {
      FirstIsMember(b);
    } else {
      assert a[0] in b;
      assert |b| > 0;
      assert b[0] in a;
      var i :| 0 <= i < |a| && a[i] == b[0];
      var j :| 0 <= j < |b| && b[j] == a[0];
      if i > 0 && j > 0 {
        LexLeAntisymmetric(Lower(a[0]), Lower(b[0]));
      }
      assert a[0] == b[0];
      forall x
        ensures x in a[1..] <==> x in b[1..]
      {
        assert x in a <==> x == a[0] || x in a[1..];
        assert x in b <==> x == b[0] || x in b[1..];
        assert a[0] !in a[1..];
        assert b[0] !in b[1..];
      }
      StrictSortedUnique(a[1..], b[1..]);
      assert a == [a[0]] + a[1..] && b == [b[0]] + b[1..];
    }
  }

  /** Results with the same members, no two equal up to letter case, are
      displayed the same, whatever their order. */
  lemma DisplayDeterminedBySet(a: seq<string>, b: seq<string>, term: string)
    requires forall x :: x in a <==> x in b
    requires forall x, y :: x in a && y in a && Lower(x) == Lower(y) ==> x == y
    ensures DisplayIndexResults(a, term) == DisplayIndexResults(b, term)
  {
    if |a| > 0 {
      assert a[0] in b;
      var da := DisplayIndexResults(a, term);
      var db := DisplayIndexResults(b, term);
      SortedDistinctIsStrict(da);
      SortedDistinctIsStrict(db);
      StrictSortedUnique(da, db);
    } else {
      FirstIsMember(b);
    }
  }

  // ---------------------------------------------------------------------
  // whatis and apropos

  /** Collect the lines of the accepted records and display them. */
  function Query(index: Index, order: seq<nat>, term: string, keep: Record -> bool): (r: seq<string>)
    requires Enumerates(order, index)
    ensures (forall k :: k in index ==> !keep(index[k])) ==> r == [NothingAppropriate(term)]
    ensures (exists k :: k in index && keep(index[k])) ==>
      && SortedBy(r, Lower)
      && NoAdjacentDuplicates(r)
      && forall x :: x in r <==> exists k :: k in index && keep(index[k]) && x == Format(index[k])
  {
    var results := Collect(index, order, keep, Format);
    CollectNonEmpty(index, order, keep, Format);
    CollectMembers(index, order, keep, Format);
    DisplayIndexResults(results, term)
  }

  /** `index_whatis_search` (lib.rs:419-430): the records whose page name is
      exactly the term. */
  function WhatisSearch(index: Index, order: seq<nat>, term: string): (r: seq<string>)
    requires Enumerates(order, index)
    ensures (forall k :: k in index ==> index[k].page != term) ==> r == [NothingAppropriate(term)]
    ensures (exists k :: k in index && index[k].page == term) ==>
      && SortedBy(r, Lower)
      && NoAdjacentDuplicates(r)
      && forall x :: x in r <==> exists k :: k in index && index[k].page == term && x == Format(index[k])
  {
    Query(index, order, term, (rec: Record) => rec.page == term)
  }

  /** The term occurs in the page name or the description. */
  predicate AproposMatch(rec: Record, term: string) {
    Contains(rec.page, term) || Contains(rec.description, term)
  }

  /** `index_apropos_search` (lib.rs:435-446): the records whose page name or
      description contains the term. */
  function AproposSearch(index: Index, order: seq<nat>, term: string): (r: seq<string>)
    requires Enumerates(order, index)
    ensures (forall k :: k in index ==> !AproposMatch(index[k], term)) ==> r == [NothingAppropriate(term)]
    ensures (exists k :: k in index && AproposMatch(index[k], term)) ==>
      && SortedBy(r, Lower)
      && NoAdjacentDuplicates(r)
      && forall x :: x in r <==> exists k :: k in index && AproposMatch(index[k], term) && x == Format(index[k])
  {
    Query(index, order, term, (rec: Record) => AproposMatch(rec, term))
  }

  /** No two lines of accepted records differ only in letter case. */
  predicate LinesCaseDistinct(index: Index, keep: Record -> bool) {
    forall k1, k2 :: k1 in index && k2 in index && keep(index[k1]) && keep(index[k2]) && Lower(Format(index[k1])) == Lower(Format(index[k2])) ==> Format(index[k1]) == Format(index[k2])
  }

  /** A query's output does not depend on the map's iteration order when no
      two of its lines differ only in letter case. */
  lemma QueryOrderIndependent(index: Index, o1: seq<nat>, o2: seq<nat>, term: string, keep: Record -> bool)
    requires Enumerates(o1, index) && Enumerates(o2, index)
    requires LinesCaseDistinct(index, keep)
    ensures Query(index, o1, term, keep) == Query(index, o2, term, keep)
  {
    var a := Collect(index, o1, keep, Format);
    var b := Collect(index, o2, keep, Format);
    CollectMembers(index, o1, keep, Format);
    CollectMembers(index, o2, keep, Format);
    DisplayDeterminedBySet(a, b, term);
  }

  lemma WhatisOrderIndependent(index: Index, o1: seq<nat>, o2: seq<nat>, term: string)
    requires Enumerates(o1, index) && Enumerates(o2, index)
    requires LinesCaseDistinct(index, (rec: Record) => rec.page == term)
    ensures WhatisSearch(index, o1, term) == WhatisSearch(index, o2, term)
  {
    QueryOrderIndependent(index, o1, o2, term, (rec: Record) => rec.page == term);
  }

  lemma AproposOrderIndependent(index: Index, o1: seq<nat>, o2: seq<nat>, term: string)
    requires Enumerates(o1, index) && Enumerates(o2, index)
    requires LinesCaseDistinct(index, (rec: Record) => AproposMatch(rec, term))
    ensures AproposSearch(index, o1, term) == AproposSearch(index, o2, term)
  {
    QueryOrderIndependent(index, o1, o2, term, (rec: Record) => AproposMatch(rec, term));
  }

  // ---------------------------------------------------------------------
  // first_section

  /** What `first_section` does: render one page file, or report that there
      is none. */
  datatype Resolution = Render(path: string) | NoEntry(message: string)

  /** `first_section` (lib.rs:263-283): of the files of the page, the one
      whose path comes first in lowercase order; the message when there is
      none. */
  function FirstSection(index: Index, order: seq<nat>, page: string): (r: Resolution)
    requires Enumerates(order, index)
    ensures r.NoEntry? <==> forall k :: k in index ==> index[k].page != page
    ensures r.NoEntry? ==> r.message == "No manual entry for " + page
    ensures r.Render? ==> exists k :: k in index && index[k].page == page && index[k].filePath == r.path
    ensures r.Render? ==> forall k :: k in index && index[k].page == page ==>
      LexLe(Lower(r.path), Lower(index[k].filePath))
  {
    var keep := (rec: Record) => rec.page == page;
    var show := (rec: Record) => rec.filePath;
    var paths := Collect(index, order, keep, show);
    var sorted := SortBy(paths, Lower);
    CollectMembers(index, order, keep, show);
    CollectNonEmpty(index, order, keep, show);
    MembersOfSorted(paths);
    if |sorted| == 0 then
      NoEntry("No manual entry for " + page)
    else
      assert sorted[0] in paths;
      FirstIsLeast(index, page, sorted, show);
      Render(sorted[0])
  }

  lemma FirstIsLeast(index: Index, page: string, sorted: seq<string>, show: Record -> string)
    requires |sorted| > 0 && SortedBy(sorted, Lower)
    requires forall k :: k in index && index[k].page == page ==> show(index[k]) in sorted
    requires forall k :: k in index ==> show(index[k]) == index[k].filePath
    ensures forall k :: k in index && index[k].page == page ==>
      LexLe(Lower(sorted[0]), Lower(index[k].filePath))
  {
    forall k | k in index && index[k].page == page
      ensures LexLe(Lower(sorted[0]), Lower(index[k].filePath))
    {
      var j :| 0 <= j < |sorted| && sorted[j] == show(index[k]);
      if j == 0 {
        LexLeReflexive(Lower(sorted[0]));
      }
    }
  }

  /** No two files of the page have paths that differ only in letter case. */
  predicate PathsCaseDistinct(index: Index, page: string) {
    forall k1, k2 :: k1 in index && k2 in index && index[k1].page == page && index[k2].page == page && Lower(index[k1].filePath) == Lower(index[k2].filePath) ==> index[k1].filePath == index[k2].filePath
  }

  /** Whatever the iteration order, `first_section` renders a file or
      reports none alike, and the files it renders agree up to letter
      case; when no two of the page's paths differ only in case, they are
      the same file. */
  lemma FirstSectionOrderIndependent(index: Index, o1: seq<nat>, o2: seq<nat>, page: string)
    requires Enumerates(o1, index) && Enumerates(o2, index)
    ensures FirstSection(index, o1, page).NoEntry? == FirstSection(index, o2, page).NoEntry?
    ensures FirstSection(index, o1, page).Render? ==>
      Lower(FirstSection(index, o1, page).path) == Lower(FirstSection(index, o2, page).path)
    ensures PathsCaseDistinct(index, page) ==> FirstSection(index, o1, page) == FirstSection(index, o2, page)
  {
    var r1 := FirstSection(index, o1, page);
    var r2 := FirstSection(index, o2, page);
    if r1.Render? {
      var k1 :| k1 in index && index[k1].page == page && index[k1].filePath == r1.path;
      var k2 :| k2 in index && index[k2].page == page && index[k2].filePath == r2.path;
      LexLeAntisymmetric(Lower(r1.path), Lower(r2.path));
    }
  }

  // ---------------------------------------------------------------------
  // Examples

  const SectionOnePath := "/man/man1/ls.1.gz"
  const SectionSevenPath := "/man/man7/ls.7.gz"

  /** `ls` in section 7 under id 1 and in section 1 under id 2. */
  function TwoSections(): Index {
    map[
      1 := Record(1, "ls", "7", "x", SectionSevenPath),
      2 := Record(2, "ls", "1", "list directory contents", SectionOnePath)]
  }

  lemma TwoSectionsEnumerated()
    ensures Enumerates([1, 2], TwoSections())
  {
    assert TwoSections().Keys == {1, 2};
  }

  lemma TwoSectionsPaths()
    ensures forall k :: k in TwoSections() ==>
      TwoSections()[k].filePath == SectionOnePath || TwoSections()[k].filePath == SectionSevenPath
  {
    assert TwoSections().Keys == {1, 2};
  }

  /** A page in sections 7 and 1, visited in that order: section 1 is shown. */
  lemma FirstSectionPrefersSectionOne()
    ensures Enumerates([1, 2], TwoSections()) && FirstSection(TwoSections(), [1, 2], "ls") == Render(SectionOnePath)
  {
    var index := TwoSections();
    TwoSectionsEnumerated();
    TwoSectionsPaths();
    var r := FirstSection(index, [1, 2], "ls");
    assert 2 in index && index[2].page == "ls" && index[2].filePath == SectionOnePath;
    assert r.Render?;
    var k :| k in index && index[k].page == "ls" && index[k].filePath == r.path;
    assert LexLe(Lower(r.path), Lower(SectionOnePath));
    PathsDiffer();
  }

  lemma PathsDiffer()
    ensures !LexLe(Lower(SectionSevenPath), Lower(SectionOnePath))
  {
    assert IsLowered(SectionOnePath) && IsLowered(SectionSevenPath);
    LowerOfLowered(SectionOnePath);
    LowerOfLowered(SectionSevenPath);
    LexLeCommonPrefix(SectionSevenPath, SectionOnePath, 8);
  }

  /** Below a common prefix, the order is decided by the first difference. */
  lemma {:induction false} LexLeCommonPrefix(a: string, b: string, n: nat)
    requires n < |a| && n < |b| && b[n] < a[n]
    requires forall k :: 0 <= k < n ==> a[k] == b[k]
    ensures !LexLe(a, b)
    decreases n
  {
    if n > 0 {
      assert a[0] == b[0];
      forall k | 0 <= k < n - 1
        ensures a[1..][k] == b[1..][k]
      {
        assert a[1..][k] == a[k + 1] && b[1..][k] == b[k + 1];
      }
      LexLeCommonPrefix(a[1..], b[1..], n - 1);
    }
  }
}

=== FILE: sorting.dfy ===
/** Stable sorting by a string key and removal of adjacent duplicates: the
    behaviour of Rust's `sort_by` / `sort_by_key` (both stable) and of
    `Vec::dedup`. Keys are compared with the lexicographic `LexLe`. */
module Sorting {
  import opened Strings

  /** Every earlier element's key is at most every later element's key. */
  ghost predicate SortedBy<T>(s: seq<T>, key: T -> string) {
    forall i, j :: 0 <= i < j < |s| ==> LexLe(key(s[i]), key(s[j]))
  }

  /** The elements of `s` whose key is `k`, in their order in `s`. */
  function WithKey<T>(s: seq<T>, key: T -> string, k: string): seq<T>
    decreases |s|
  {
    if |s| == 0 then [] else (if key(s[0]) == k then [s[0]] else []) + WithKey(s[1..], key, k)
  }

  /** `x` placed just before the first element of `s` whose key is not
      smaller than its own. */
  function Insert<T>(x: T, s: seq<T>, key: T -> string): (r: seq<T>)
    ensures |r| == |s| + 1
    ensures multiset(r) == multiset(s) + multiset{x}
    ensures SortedBy(s, key) ==> SortedBy(r, key)
    ensures forall k :: WithKey(r, key, k) == (if key(x) == k then [x] else []) + WithKey(s, key, k)
    decreases |s|
  {
    if |s| == 0 then
      assert WithKey([x], key, key(x)) == [x] + WithKey([], key, key(x));
      [x]
    else if LexLe(key(x), key(s[0])) then
      InsertFrontSorted(x, s, key);
      InsertFrontWithKey(x, s, key);
      [x] + s
    else
      var r' := Insert(x, s[1..], key);
      LexLeTotal(key(x), key(s[0]));
      InsertConsSorted(s[0], r', s, x, key);
      InsertConsWithKey(x, s, r', key);
      InsertConsMultiset(x, s, r');
      [s[0]] + r'
  }

  lemma InsertFrontWithKey<T>(x: T, s: seq<T>, key: T -> string)
    ensures forall k :: WithKey([x] + s, key, k) == (if key(x) == k then [x] else []) + WithKey(s, key, k)
  {
    assert ([x] + s)[1..] == s;
  }

  lemma InsertConsWithKey<T>(x: T, s: seq<T>, r': seq<T>, key: T -> string)
    requires |s| > 0 && !LexLe(key(x), key(s[0]))
    requires forall k :: WithKey(r', key, k) == (if key(x) == k then [x] else []) + WithKey(s[1..], key, k)
    ensures forall k :: WithKey([s[0]] + r', key, k) == (if key(x) == k then [x] else []) + WithKey(s, key, k)
  {
    var t := [s[0]] + r';
    ConsTail(s[0], r');
    forall k
      ensures WithKey(t, key, k) == (if key(x) == k then [x] else []) + WithKey(s, key, k)
    {
      var fx := if key(x) == k then [x] else [];
      var f0 := if key(s[0]) == k then [s[0]] else [];
      assert WithKey(t, key, k) == f0 + WithKey(r', key, k);
      assert WithKey(s, key, k) == f0 + WithKey(s[1..], key, k);
      assert fx == [] || f0 == [] by {
        LexLeReflexive(key(x));
      }
      SwapEmpty(f0, fx, WithKey(s[1..], key, k));
    }
  }

  lemma InsertConsMultiset<T>(x: T, s: seq<T>, r': seq<T>)
    requires |s| > 0 && multiset(r') == multiset(s[1..]) + multiset{x}
    ensures multiset([s[0]] + r') == multiset(s) + multiset{x}
  {
    assert s == [s[0]] + s[1..];
  }

  lemma InsertFrontSorted<T>(x: T, s: seq<T>, key: T -> string)
    requires |s| > 0 && LexLe(key(x), key(s[0]))
    ensures SortedBy(s, key) ==> SortedBy([x] + s, key)
  {
    if SortedBy(s, key) {
      forall i, j | 0 <= i < j < |[x] + s|
        ensures LexLe(key(([x] + s)[i]), key(([x] + s)[j]))
      {
        if i == 0 && j > 1 {
          LexLeTransitive(key(x), key(s[0]), key(s[j - 1]));
        }
      }
    }
  }

  lemma InsertConsSorted<T>(y: T, r': seq<T>, s: seq<T>, x: T, key: T -> string)
    requires |s| > 0 && y == s[0] && LexLe(key(y), key(x))
    requires multiset(r') == multiset(s[1..]) + multiset{x}
    requires SortedBy(s[1..], key) ==> SortedBy(r', key)
    ensures SortedBy(s, key) ==> SortedBy([y] + r', key)
  {
    if SortedBy(s, key) {
      assert SortedBy(s[1..], key);
      forall j | 0 <= j < |r'|
        ensures LexLe(key(y), key(r'[j]))
      {
        assert r'[j] in multiset(r');
        if r'[j] != x {
          assert r'[j] in multiset(s[1..]);
          var m :| 0 <= m < |s[1..]| && s[1..][m] == r'[j];
          assert s[m + 1] == r'[j];
        }
      }
    }
  }

  /** A stable insertion sort: Rust's `sort_by_key(key)`, and `sort_by` with
      a comparator that compares `key` values. */
  function SortBy<T>(s: seq<T>, key: T -> string): (r: seq<T>)
    ensures |r| == |s|
    ensures multiset(r) == multiset(s)
    ensures SortedBy(r, key)
    ensures forall k :: WithKey(r, key, k) == WithKey(s, key, k)
    decreases |s|
  {
    if |s| == 0 then []
    else
      assert s == [s[0]] + s[1..];
      assert multiset(s) == multiset{s[0]} + multiset(s[1..]);
      Insert(s[0], SortBy(s[1..], key), key)
  }

  // ---------------------------------------------------------------------
  // A stable sort is determined by sortedness and per-key order

  lemma WithKeyMember<T>(s: seq<T>, key: T -> string, i: int)
    requires 0 <= i < |s|
    ensures |WithKey(s, key, key(s[i]))| > 0
    decreases |s|
  {
    if i > 0 {
      WithKeyMember(s[1..], key, i - 1);
    }
  }

  lemma WithKeyWitness<T>(s: seq<T>, key: T -> string, k: string) returns (i: nat)
    requires |WithKey(s, key, k)| > 0
    ensures i < |s| && key(s[i]) == k && s[i] == WithKey(s, key, k)[0]
    decreases |s|
  {
    if key(s[0]) == k {
      i := 0;
    } else {
      var j := WithKeyWitness(s[1..], key, k);
      i := j + 1;
    }
  }

  /** Two sequences sorted by `key` that agree, key by key, on the order of
      their elements are the same sequence. */
  lemma {:induction false} SortedUnique<T>(a: seq<T>, b: seq<T>, key: T -> string)
    requires SortedBy(a, key) && SortedBy(b, key)
    requires forall k :: WithKey(a, key, k) == WithKey(b, key, k)
    ensures a == b
    decreases |a|
  {
    if |a| == 0 {
      if |b| > 0 {
        WithKeyMember(b, key, 0);
        assert false;
      }
    } else {
      var ka := key(a[0]);
      WithKeyMember(a, key, 0);
      assert WithKey(a, key, ka) == WithKey(b, key, ka);
      var ib := WithKeyWitness(b, key, ka);
      var kb := key(b[0]);
      WithKeyMember(b, key, 0);
      assert WithKey(a, key, kb) == WithKey(b, key, kb);
      var ia := WithKeyWitness(a, key, kb);
      if ia > 0 {
        assert LexLe(ka, kb);
      }
      if ib > 0 {
        assert LexLe(kb, ka);
      }
      LexLeReflexive(ka);
      LexLeAntisymmetric(ka, kb);
      assert a[0] == b[0];
      forall k
        ensures WithKey(a[1..], key, k) == WithKey(b[1..], key, k)
      {
        var front := if key(a[0]) == k then [a[0]] else [];
        assert WithKey(a, key, k) == front + WithKey(a[1..], key, k);
        assert WithKey(b, key, k) == front + WithKey(b[1..], key, k);
        assert (front + WithKey(a[1..], key, k))[|front|..] == WithKey(a[1..], key, k);
        assert (front + WithKey(b[1..], key, k))[|front|..] == WithKey(b[1..], key, k);
      }
      SortedUnique(a[1..], b[1..], key);
      assert a == [a[0]] + a[1..] && b == [b[0]] + b[1..];
    }
  }

  /** `SortBy` is the one stable sort: any sequence sorted by `key` that keeps,
      for every key, the input's order of the elements with that key equals it. */
  lemma StableSortUnique<T>(s: seq<T>, t: seq<T>, key: T -> string)
    requires SortedBy(t, key)
    requires forall k :: WithKey(t, key, k) == WithKey(s, key, k)
    ensures t == SortBy(s, key)
  {
    SortedUnique(t, SortBy(s, key), key);
  }

  // ---------------------------------------------------------------------
  // Adjacent duplicates

  /** No two neighbours are equal. */
  predicate NoAdjacentDuplicates(s: seq<string>) {
    forall i :: 0 <= i < |s| - 1 ==> s[i] != s[i + 1]
  }

  /** The first element of each run of equal neighbours that starts at index
      `i` or later, in order: `s[j]` is kept when `j` is 0 or `s[j]` differs
      from `s[j - 1]`. */
  function RunHeads(s: seq<string>, i: nat): seq<string>
    requires i <= |s|
    decreases |s| - i
  {
    if i == |s| then []
    else (if i == 0 || s[i] != s[i - 1] then [s[i]] else []) + RunHeads(s, i + 1)
  }

  /** Past index 1, dropping the first element shifts the runs by one. */
  lemma {:induction false} RunHeadsShift(s: seq<string>, i: nat)
    requires 2 <= i <= |s|
    ensures RunHeads(s, i) == RunHeads(s[1..], i - 1)
    decreases |s| - i
  {
    if i < |s| {
      RunHeadsShift(s, i + 1);
      assert s[1..][i - 1] == s[i] && s[1..][i - 2] == s[i - 1];
    }
  }

  /** `Vec::dedup` on lines: every run of equal neighbours collapsed to its
      first element, in order. */
  function Dedup(s: seq<string>): (r: seq<string>)
    ensures r == RunHeads(s, 0)
    ensures |r| <= |s|
    ensures |r| == 0 <==> |s| == 0
    ensures |s| > 0 ==> r[0] == s[0]
    ensures forall x :: x in r <==> x in s
    ensures NoAdjacentDuplicates(r)
    ensures NoAdjacentDuplicates(s) ==> r == s
    decreases |s|
  {
    if |s| <= 1 then s
    else
      var r' := Dedup(s[1..]);
      RunHeadsShift(s, 2);
      assert s[1..][0] == s[1];
      if s[0] == s[1] then
        assert forall x :: x in s <==> x in s[1..] by {
          assert s == [s[0]] + s[1..];
        }
        r'
      else
        assert s == [s[0]] + s[1..];
        [s[0]] + r'
  }

  /** Collapsing runs keeps a sorted sequence sorted. */
  lemma {:induction false} DedupSorted(s: seq<string>, key: string -> string)
    requires SortedBy(s, key)
    ensures SortedBy(Dedup(s), key)
    decreases |s|
  {
    if |s| > 1 {
      assert SortedBy(s[1..], key);
      DedupSorted(s[1..], key);
      if s[0] != s[1] {
        var r' := Dedup(s[1..]);
        forall j | 0 <= j < |r'|
          ensures LexLe(key(s[0]), key(r'[j]))
        {
          assert r'[j] in s[1..];
          var m :| 0 <= m < |s[1..]| && s[1..][m] == r'[j];
          assert s[m + 1] == r'[j];
        }
      }
    }
  }
}

=== FILE: strings.dfy ===
/** The string operations of Rust's `str` that the indexing and search code
    relies on, written over `string` (a sequence of Unicode scalar values):
    leftmost search, `split(..).last()`, `split_once`, `replacen(.., 1)`,
    `split_whitespace`, `trim_end_matches`, `trim_matches`, ASCII lowercase
    and the lexicographic order `Ord for str` compares with. */
module Strings {
  import opened Wrappers

  // ---------------------------------------------------------------------
  // Lowercase

  /** ASCII lowercase of one character; every other character is kept. */
  function LowerChar(c: char): (r: char)
    ensures 'A' <= c <= 'Z' ==> r as int == c as int + 32
    ensures !('A' <= c <= 'Z') ==> r == c
  {
    if 'A' <= c <= 'Z' then (c as int + 32) as char else c
  }

  /** No character of `s` is an ASCII capital letter. */
  predicate IsLowered(s: string) {
    forall i :: 0 <= i < |s| ==> !('A' <= s[i] <= 'Z')
  }

  /** `to_lowercase`, restricted to ASCII letters. */
  function Lower(s: string): (r: string)
    ensures |r| == |s|
    ensures forall i :: 0 <= i < |s| ==> r[i] == LowerChar(s[i])
    ensures IsLowered(r)
  {
    seq(|s|, i requires 0 <= i < |s| => LowerChar(s[i]))
  }

  lemma LoweredConcat(a: string, b: string)
    requires IsLowered(a) && IsLowered(b)
    ensures IsLowered(a + b)
  {
    forall j | 0 <= j < |a + b|
      ensures !('A' <= (a + b)[j] <= 'Z')
    {
      if j < |a| {
        assert (a + b)[j] == a[j];
      } else {
        assert (a + b)[j] == b[j - |a|];
      }
    }
  }

  lemma LowerOfLowered(s: string)
    requires IsLowered(s)
    ensures Lower(s) == s
  {
  }

  // ---------------------------------------------------------------------
  // Prefixes, suffixes and occurrences

  predicate StartsWith(s: string, p: string) {
    |p| <= |s| && s[..|p|] == p
  }

  predicate EndsWith(s: string, p: string) {
    |p| <= |s| && s[|s| - |p|..] == p
  }

  /** `pat` occurs in `s` starting at index `i`. */
  predicate Occurs(s: string, pat: string, i: int) {
    0 <= i && i + |pat| <= |s| && s[i..i + |pat|] == pat
  }

  /** `str::find`: the index of the leftmost occurrence of `pat`. */
  function Find(s: string, pat: string): (r: Option<nat>)
    ensures r.Some? ==> Occurs(s, pat, r.value)
    ensures r.Some? ==> forall i :: 0 <= i < r.value ==> !Occurs(s, pat, i)
    ensures r.None? ==> forall i :: !Occurs(s, pat, i)
    decreases |s|
  {
    if |s| < |pat| then None
    else if s[..|pat|] == pat then Some(0)
    else
      var rest := Find(s[1..], pat);
      assert forall i :: 1 <= i ==> (Occurs(s, pat, i) <==> Occurs(s[1..], pat, i - 1)) by {
        forall i | 1 <= i
          ensures Occurs(s, pat, i) <==> Occurs(s[1..], pat, i - 1)
        {
          OccursShift(s, pat, i);
        }
      }
      match rest
      case None => None
      case Some(k) => Some(k + 1)
  }

  lemma OccursShift(s: string, pat: string, i: int)
    requires |s| > 0 && 1 <= i
    ensures Occurs(s, pat, i) <==> Occurs(s[1..], pat, i - 1)
  {
    if i + |pat| <= |s| {
      var a := s[i..i + |pat|];
      var b := s[1..][i - 1..i - 1 + |pat|];
      forall j | 0 <= j < |pat|
        ensures a[j] == b[j]
      {
        assert a[j] == s[i + j] && b[j] == s[1..][i - 1 + j];
      }
      assert a == b;
    }
  }

  /** `str::contains`. */
  predicate Contains(s: string, pat: string) {
    Find(s, pat).Some?
  }

  lemma ContainsAt(s: string, pat: string, i: int)
    requires Occurs(s, pat, i)
    ensures Contains(s, pat)
  {
  }

  /** The leftmost occurrence is at `k` when `pat` occurs there and nowhere before. */
  lemma FindIs(s: string, pat: string, k: nat)
    requires Occurs(s, pat, k)
    requires forall i :: 0 <= i < k ==> !Occurs(s, pat, i)
    ensures Find(s, pat) == Some(k)
  {
  }

  /** An occurrence of `pat` in `a + b` that ends inside `a` is an occurrence in `a`. */
  lemma OccursWithinPrefix(a: string, b: string, pat: string, i: int)
    requires Occurs(a + b, pat, i) && i + |pat| <= |a|
    ensures Occurs(a, pat, i)
  {
    assert (a + b)[i..i + |pat|] == a[i..i + |pat|];
  }

  /** An occurrence of `pat` in `a + b` that starts inside `b` is an occurrence in `b`. */
  lemma OccursWithinSuffix(a: string, b: string, pat: string, i: int)
    requires Occurs(a + b, pat, i) && |a| <= i
    ensures Occurs(b, pat, i - |a|)
  {
    assert (a + b)[i..i + |pat|] == b[i - |a|..i - |a| + |pat|];
  }

  /** Lowercasing never moves an occurrence of a pattern without capitals. */
  lemma OccursLower(s: string, pat: string, i: int)
    requires IsLowered(pat) && (forall j :: 0 <= j < |pat| ==> LowerChar(pat[j]) == pat[j])
    requires Occurs(s, pat, i)
    ensures Occurs(Lower(s), pat, i)
  {
    assert Lower(s)[i..i + |pat|] == pat by {
      forall j | 0 <= j < |pat|
        ensures Lower(s)[i + j] == pat[j]
      {
        assert s[i + j] == pat[j];
      }
    }
  }

  // ---------------------------------------------------------------------
  // Splitting and replacing

  /** `s.split_once(sep).map(|p| p.0)`: the text before the leftmost `sep`. */
  function TextBefore(s: string, sep: string): (r: Option<string>)
    ensures r.None? <==> !Contains(s, sep)
    ensures r.Some? ==> StartsWith(s, r.value) && Occurs(s, sep, |r.value|)
    ensures r.Some? ==> forall i :: 0 <= i < |r.value| ==> !Occurs(s, sep, i)
  {
    match Find(s, sep)
    case None => None
    case Some(i) => Some(s[..i])
  }

  /** An occurrence in a suffix of `s` is an occurrence in `s`. */
  lemma OccursInDrop(s: string, j: nat, pat: string, i: int)
    requires j <= |s| && Occurs(s[j..], pat, i)
    ensures Occurs(s, pat, j + i)
  {
    assert s[j..][i..i + |pat|] == s[j + i..j + i + |pat|];
  }

  /** The prefix of length `k` ends in `pat` when `pat` occurs just before `k`. */
  lemma EndsWithAt(s: string, pat: string, k: int)
    ensures |pat| <= k <= |s| && Occurs(s, pat, k - |pat|) ==> EndsWith(s[..k], pat)
  {
    if |pat| <= k <= |s| {
      assert s[..k][k - |pat|..] == s[k - |pat|..k];
    }
  }

  /** Where the last piece of `s.split(sep)` starts: just after the last of
      the occurrences of `sep` that a left-to-right, non-overlapping split
      cuts at, or 0 when there is none. */
  function SplitLastStart(s: string, sep: string): (k: nat)
    requires |sep| > 0
    ensures k <= |s|
    ensures !Contains(s[k..], sep)
    ensures k == 0 <==> !Contains(s, sep)
    ensures k > 0 ==> |sep| <= k && Occurs(s, sep, k - |sep|)
    decreases |s|
  {
    match Find(s, sep)
    case None =>
      DropNone(s);
      assert !Contains(s, sep);
      0
    case Some(i) =>
      var rest := s[i + |sep|..];
      var k' := SplitLastStart(rest, sep);
      var k := i + |sep| + k';
      SplitLastStartStep(s, sep, i, rest, k', k);
      k
  }

  /** The recursive case of `SplitLastStart`: the split cuts at the first
      occurrence `i`, and the last piece of the rest starts at `k'`. */
  lemma SplitLastStartStep(s: string, sep: string, i: nat, rest: string, k': nat, k: nat)
    requires |sep| > 0 && Occurs(s, sep, i) && rest == s[i + |sep|..]
    requires k' <= |rest| && !Contains(rest[k'..], sep)
    requires k' > 0 ==> |sep| <= k' && Occurs(rest, sep, k' - |sep|)
    requires k == i + |sep| + k'
    ensures k <= |s| && !Contains(s[k..], sep)
    ensures Contains(s, sep) && k > 0
    ensures |sep| <= k && Occurs(s, sep, k - |sep|)
  {
    ContainsAt(s, sep, i);
    DropDrop(s, i + |sep|, k');
    assert s[k..] == rest[k'..];
    if k' > 0 {
      OccursInDrop(s, i + |sep|, sep, k' - |sep|);
    }
  }

  /** `s.split(sep).last().unwrap()`: the last piece of a left-to-right,
      non-overlapping split. */
  function SplitLast(s: string, sep: string): (r: string)
    requires |sep| > 0
    ensures |r| <= |s| && r == s[|s| - |r|..]
    ensures !Contains(r, sep)
    ensures |r| == |s| <==> !Contains(s, sep)
    ensures |r| < |s| ==> EndsWith(s[..|s| - |r|], sep)
  {
    var k := SplitLastStart(s, sep);
    var r := s[k..];
    assert |s| - |r| == k;
    EndsWithAt(s, sep, |s| - |r|);
    r
  }

  /** `s.replacen(pat, repl, 1)`: the leftmost occurrence of `pat` replaced. */
  function ReplaceFirst(s: string, pat: string, repl: string): (r: string)
    ensures !Contains(s, pat) ==> r == s
    ensures Contains(s, pat) ==>
      var i := Find(s, pat).value; r == s[..i] + repl + s[i + |pat|..]
  {
    match Find(s, pat)
    case None => s
    case Some(i) => s[..i] + repl + s[i + |pat|..]
  }

  /** `s.trim_end_matches(pat)`: every trailing copy of `pat` removed. */
  function TrimEnd(s: string, pat: string): (r: string)
    requires |pat| > 0
    ensures StartsWith(s, r)
    ensures !EndsWith(r, pat)
    decreases |s|
  {
    if EndsWith(s, pat) then TrimEnd(s[..|s| - |pat|], pat) else s
  }

  /** One of the two characters `trim_matches` strips from a section token. */
  predicate IsParen(c: char) {
    c == '(' || c == ')'
  }

  function TrimLeadingParens(s: string): (r: string)
    ensures |r| <= |s| && r == s[|s| - |r|..]
    ensures |r| > 0 ==> !IsParen(r[0])
    decreases |s|
  {
    if |s| > 0 && IsParen(s[0]) then TrimLeadingParens(s[1..]) else s
  }

  function TrimTrailingParens(s: string): (r: string)
    ensures |r| <= |s| && r == s[..|r|]
    ensures |r| > 0 ==> !IsParen(r[|r| - 1])
    decreases |s|
  {
    if |s| > 0 && IsParen(s[|s| - 1]) then TrimTrailingParens(s[..|s| - 1]) else s
  }

  /** `s.trim_matches(|c| c == '(' || c == ')')`. */
  function TrimParens(s: string): (r: string)
    ensures |r| > 0 ==> !IsParen(r[0]) && !IsParen(r[|r| - 1])
  {
    TrimTrailingParens(TrimLeadingParens(s))
  }

  lemma TrimParensWrapped(w: string)
    requires |w| > 0 && !IsParen(w[0]) && !IsParen(w[|w| - 1])
    ensures TrimParens("(" + w + ")") == w
  {
    var s := "(" + w + ")";
    assert s[0] == '(' && s[1..] == w + ")";
    assert (w + ")")[0] == w[0];
    assert TrimLeadingParens(s) == w + ")";
    assert (w + ")")[|w|] == ')' && (w + ")")[..|w|] == w;
    assert TrimTrailingParens(w + ")") == TrimTrailingParens(w);
    assert TrimTrailingParens(w) == w;
  }

  // ---------------------------------------------------------------------
  // Whitespace tokens

  /** `char::is_whitespace`: the Unicode White_Space characters. */
  predicate IsWhitespace(c: char) {
    var n := c as int;
    (9 <= n <= 13) || n == 32 || n == 0x85 || n == 0xA0 || n == 0x1680
    || (0x2000 <= n <= 0x200A) || n == 0x2028 || n == 0x2029 || n == 0x202F
    || n == 0x205F || n == 0x3000
  }

  predicate NoWhitespace(s: string) {
    forall i :: 0 <= i < |s| ==> !IsWhitespace(s[i])
  }

  /** Length of the run of non-whitespace characters that starts `s`. */
  function WordLength(s: string): (n: nat)
    requires |s| > 0 && !IsWhitespace(s[0])
    ensures 1 <= n <= |s|
    ensures NoWhitespace(s[..n])
    ensures n < |s| ==> IsWhitespace(s[n])
    decreases |s|
  {
    if |s| == 1 || IsWhitespace(s[1]) then 1 else 1 + WordLength(s[1..])
  }

  /** `s.split_whitespace()`: the maximal non-empty runs of non-whitespace. */
  function Tokens(s: string): (r: seq<string>)
    ensures forall i :: 0 <= i < |r| ==> |r[i]| > 0 && NoWhitespace(r[i])
    decreases |s|
  {
    if |s| == 0 then []
    else if IsWhitespace(s[0]) then Tokens(s[1..])
    else
      var n := WordLength(s);
      [s[..n]] + Tokens(s[n..])
  }

  /** The word that starts `s` is its first `n` characters when they hold no
      whitespace and the next one, if any, is whitespace. */
  lemma {:induction false} WordLengthIs(s: string, n: nat)
    requires 0 < n <= |s|
    requires forall i :: 0 <= i < n ==> !IsWhitespace(s[i])
    requires n < |s| ==> IsWhitespace(s[n])
    ensures WordLength(s) == n
    decreases n
  {
    if n > 1 {
      WordLengthIs(s[1..], n - 1);
    }
  }

  lemma TokensWordAt(s: string, n: nat)
    requires 0 < n <= |s|
    requires forall i :: 0 <= i < n ==> !IsWhitespace(s[i])
    requires n < |s| ==> IsWhitespace(s[n])
    ensures Tokens(s) == [s[..n]] + Tokens(s[n..])
  {
    WordLengthIs(s, n);
  }

  lemma TokensSkipSpace(s: string)
    requires |s| > 0 && IsWhitespace(s[0])
    ensures Tokens(s) == Tokens(s[1..])
  {
  }

  /** A single word is a single token. */
  lemma TokensOfWord(w: string)
    requires |w| > 0 && NoWhitespace(w)
    ensures Tokens(w) == [w]
  {
    TokensWordAt(w, |w|);
    assert w[..|w|] == w;
  }

  /** A leading word followed by a space is the first token. */
  lemma TokensCons(w: string, rest: string)
    requires |w| > 0 && NoWhitespace(w)
    ensures Tokens(w + " " + rest) == [w] + Tokens(rest)
  {
    var s := w + " " + rest;
    TokensWordAt(s, |w|);
    TakeConcat(w + " ", rest, |w|);
    TakeConcat(w, " ", |w|);
    assert w[..|w|] == w;
    TokensSkipSpace(s[|w|..]);
    assert s[|w|..][1..] == rest;
  }

  /** A trailing word preceded by a space is the last token. */
  lemma {:induction false} TokensSnoc(x: string, w: string)
    requires |w| > 0 && NoWhitespace(w)
    ensures Tokens(x + " " + w) == Tokens(x) + [w]
    decreases |x|
  {
    var s := x + " " + w;
    if |x| == 0 {
      TokensSkipSpace(s);
      assert s[1..] == w;
      TokensOfWord(w);
    } else if IsWhitespace(x[0]) {
      TokensSkipSpace(s);
      DropConcat(x + " ", w, 1);
      DropConcat(x, " ", 1);
      TokensSnoc(x[1..], w);
    } else {
      var n := WordLength(x);
      TokensWordAt(s, n);
      TakeConcat(x + " ", w, n);
      TakeConcat(x, " ", n);
      DropConcat(x + " ", w, n);
      DropConcat(x, " ", n);
      if n < |x| {
        TokensSnoc(x[n..], w);
      } else {
        assert x[..n] == x;
        assert x[n..] == [];
        TokensSkipSpace(s[n..]);
        assert s[n..][1..] == w;
        TokensOfWord(w);
      }
    }
  }

  // ---------------------------------------------------------------------
  // Lexicographic order

  /** `a <= b` under `Ord for str`: code-point lexicographic order. */
  predicate LexLe(a: string, b: string) {
    |a| == 0 || (|b| > 0 && (a[0] < b[0] || (a[0] == b[0] && LexLe(a[1..], b[1..]))))
  }

  lemma LexLeReflexive(a: string)
    ensures LexLe(a, a)
  {
  }

  lemma {:induction false} LexLeTotal(a: string, b: string)
    ensures LexLe(a, b) || LexLe(b, a)
    decreases |a|
  {
    if |a| > 0 && |b| > 0 && a[0] == b[0] {
      LexLeTotal(a[1..], b[1..]);
    }
  }

  lemma {:induction false} LexLeAntisymmetric(a: string, b: string)
    requires LexLe(a, b) && LexLe(b, a)
    ensures a == b
    decreases |a|
  {
    if |a| > 0 {
      LexLeAntisymmetric(a[1..], b[1..]);
      assert a == [a[0]] + a[1..] && b == [b[0]] + b[1..];
    }
  }

  /** A key squeezed between two equal keys equals them. */
  lemma LexLeSandwich(a: string, b: string, c: string)
    requires LexLe(a, b) && LexLe(b, c)
    ensures a == c ==> a == b
  {
    if a == c {
      LexLeAntisymmetric(a, b);
    }
  }

  lemma {:induction false} LexLeTransitive(a: string, b: string, c: string)
    requires LexLe(a, b) && LexLe(b, c)
    ensures LexLe(a, c)
    decreases |a|
  {
    if |a| > 0 && a[0] == b[0] && b[0] == c[0] {
      LexLeTransitive(a[1..], b[1..], c[1..]);
    }
  }

  // ---------------------------------------------------------------------
  // Slicing and concatenation identities
  //
  // Each lemma below states one identity about slices and concatenations
  // that Dafny proves at once when it stands alone. The proofs elsewhere
  // call them rather than assert the identity inline, which keeps every
  // proof obligation small.

  lemma DropNone(s: string)
    ensures s[0..] == s
  {
  }

  lemma DropDrop(s: string, a: nat, b: nat)
    requires a + b <= |s|
    ensures s[a..][b..] == s[a + b..]
  {
  }

  lemma SplitConcat(x: string, y: string)
    ensures (x + y)[..|x|] == x && (x + y)[|x|..] == y
  {
  }

  lemma TakeConcat(x: string, y: string, n: nat)
    requires n <= |x|
    ensures (x + y)[..n] == x[..n]
  {
  }

  lemma DropConcat(x: string, y: string, n: nat)
    requires n <= |x|
    ensures (x + y)[n..] == x[n..] + y
  {
  }

  lemma ConsTail<T>(x: T, s: seq<T>)
    ensures ([x] + s)[0] == x && ([x] + s)[1..] == s
  {
  }

  /** Of two pieces one of which is empty, either can go first. */
  lemma SwapEmpty<T>(a: seq<T>, b: seq<T>, w: seq<T>)
    requires a == [] || b == []
    ensures a + (b + w) == b + (a + w)
  {
    if a == [] {
      assert a + (b + w) == b + w;
      assert a + w == w;
    } else {
      assert b + w == w;
      assert b + (a + w) == a + w;
    }
  }

  lemma ConcatRight(x: string, y: string, i: nat)
    requires |x| <= i < |x| + |y|
    ensures (x + y)[i] == y[i - |x|]
  {
  }
}

=== FILE: wrappers.dfy ===
/** Failure-compatible wrappers shared by the model: `Option` for Rust's
    `Option` and `Result` for an operation that either yields a value or
    ends the run (a `process::exit` or a panic in the original). */
module Wrappers {

  datatype Option<+T> = None | Some(value: T)

  datatype Result<+R, +E> = Success(value: R) | Failure(error: E)
}
